=== FILE: README.md ===
# Logic training session, modelled in Dafny

This project models the core of the logic-training web app. That core is three parts.

- The session controller `useTrainingSession` (src/features/training/useTrainingSession.ts) is the React hook that runs a quiz. It handles the menu, starting a session and drilling questions one by one. It also handles the countdown, grading, feedback, auto-advance, the summary and the settings.
- The logic training provider (src/features/training/providers/logicTrainingProvider.ts) holds the default settings, the three setting controls, answer parsing and grading. It also has the adapters that call the difficulty engine.
- The difficulty engine (src/lib/logic.ts) holds the statistics table and the question bank. Its statistics functions are stubs in the repository, and the model keeps them as stubs.

There is one Dafny module per source file.

- `Logic` (logic.dfy) and `Provider` (provider.dfy) are pure: datatypes, functions and lemmas.
- `Session` (session.dfy) contains the class `TrainingSession`. Its fields are the hook's state, and its methods are the hook's actions.
  - Every method states its whole new state in terms of `View()`, the snapshot of all fields. Most actions give it as `AfterX(old(View()), …)`, where `AfterX` is a pure transition function that the lemmas reason about. The setters and the simplest actions (`GoToMenu`, `ResetStats`, `HandleAnswerChange`, `AdjustSetting`, and `CreateQuestion`, which may set only the error) give it as a record update of `old(View())`.
  - Every exported action also keeps `Valid()`. Valid means the settings are within bounds, the index is in [1, 50] and the countdown is in [0, 120]. An answered question has feedback. There are never more results than questions shown.
  - Each `useState` setter the hook uses is a method `SetX` that replaces one field and nothing else. The actions change state only through these setters, as the hook does, apart from the two refs `startTimeRef` and `didLoadFromStorage`, which they assign directly.
  - `normalizeSettings` reassigns `next` in a loop, so it is a method. Its loop invariant ties it to the fold `NormalizeWith`.
- `Wrappers` (wrappers.dfy) holds `Option` and `Result`. A `Result` models a thrown exception.

The environment supplies the clock and the timers.

- `Date.now()` is the parameter `now`.
- The one-second interval body is the method `Tick`.
- The 700 ms auto-advance timeout is `FireAutoAdvance`.
- The completion callback is the boolean `completed` returned by `HandleNext`.
- The values read from storage are parameters of `LoadFromStorage`.

The hook keeps the refs `statsRef` and `modeRef` equal to the state `stats` and `mode`, so each pair is one field.

The app's own copy promises adaptive drills. The drill subtitle says "Answer fast and correct to level up" (src/config/training.ts:66), and the menu offers a random mix that adapts "to your weakest skill" (src/config/training.ts:54). Each skill's record also carries `streak`, `mistakeStreak` and `history`. But src/lib/logic.ts:29 marks the engine as dummy code, and none of these fields ever changes. The model follows the code.

## Model

| member | source | states |
|---|---|---|
| Logic.CreateDefaultStats | src/lib/logic.ts:31-36 | exactly the four skills, each at level 1 with zero streaks and an empty history |
| Logic.FindBySkill | src/lib/logic.ts:73 | `find` returns nothing iff no question has the skill; otherwise it returns the first question with that skill |
| Logic.GeneratedQuestionInBank | src/lib/logic.ts:38-74 | for every skill and level, the generated question is one of the four bank questions |
| Logic.GenerateQuestionSkill | src/lib/logic.ts:38-74 | for every skill and every level, the generated question drills the requested skill |
| Logic.GeneratedQuestionWellFormed | src/lib/logic.ts:39-72 | every generated question is at level 1, and its answer is one of its options |
| Logic.GenerateQuestion | src/lib/logic.ts:38-74 | the first bank entry with the skill, else the first entry; the level is ignored. Its properties are the three lemmas below |
| Logic.GetAccuracy | src/lib/logic.ts:76 | stub: always 0, as `EngineStubsAreConstant` states |
| Logic.GetAverageMs | src/lib/logic.ts:77 | stub: always 0, as `EngineStubsAreConstant` states |
| Logic.GetTargetMs | src/lib/logic.ts:78 | stub: 5000 ms for every level, as `EngineStubsAreConstant` states |
| Logic.GetWeakestSkill | src/lib/logic.ts:79 | stub: always syllogism, as `EngineStubsAreConstant` states |
| Logic.PickSkill | src/lib/logic.ts:80 | stub: always syllogism, as `EngineStubsAreConstant` and `Session.MixModeDrillsSyllogism` state |
| Logic.UpdateStats | src/lib/logic.ts:82-84 | stub: returns the table it is given, as `StatsNeverAdapt` states for any sequence of updates |
| Logic.StatsNeverAdapt | src/lib/logic.ts:82-84 | after any sequence of recorded outcomes the table is unchanged, so no skill's level ever moves |
| Logic.EngineStubsAreConstant | src/lib/logic.ts:76-80 | accuracy and average time are 0, the target is 5000 ms at every level, and the weakest and picked skill are both syllogism |
| Provider.Clamp | src/features/training/providers/logicTrainingProvider.ts:25-26 | the result is in [min, max] when min ≤ max; it is the value itself when that is in range, min below the range, and max above it or when max < min |
| Provider.ControlFor | src/features/training/providers/logicTrainingProvider.ts:67-109 | each control id names a declared control |
| Provider.GetValue | src/features/training/providers/logicTrainingProvider.ts:67-109 | a control's getValue: the field itself for the two numeric controls, 0 for "en" and 1 for any other language. `LanguageRoundTrip` relates it to `SetValue` |
| Provider.SetValue | src/features/training/providers/logicTrainingProvider.ts:67-109 | a control's setValue changes only its own field. A numeric value is stored unchanged when in bounds, as the minimum below them and as the maximum above them. The language becomes "en" for 0 and "id" for anything else |
| Provider.DefaultSettingsWithinBounds | src/features/training/providers/logicTrainingProvider.ts:28-32 | the defaults (10, 20, "en") lie within every control's bounds |
| Provider.LanguageRoundTrip | src/features/training/providers/logicTrainingProvider.ts:95-108 | set-then-get returns 0 and 1 unchanged; get-then-set returns "en" and "id" settings unchanged |
| Provider.SanitizeInput | src/features/training/providers/logicTrainingProvider.ts:146 | the identity; `Session.ExpectedAnswerParses` relies on it |
| Provider.ParseInput | src/features/training/providers/logicTrainingProvider.ts:147 | delegates to `ParseStringInput`, whose contract is in its own row |
| Provider.ParseStringInput | src/features/training/providers/logicTrainingProvider.ts:111-116 | the input is rejected, as empty, iff it is the empty string; otherwise the parsed value is the input |
| Provider.LowerChar | src/features/training/providers/logicTrainingProvider.ts:148-149 | `toLowerCase` on one character: an ASCII capital becomes its small letter, anything else stays; `LowerSpec` uses it |
| Provider.Lower | src/features/training/providers/logicTrainingProvider.ts:148-149 | `toLowerCase` on a string keeps its length; `LowerSpec` and `LowerIdempotent` state the rest |
| Provider.LowerSpec | src/features/training/providers/logicTrainingProvider.ts:148-149 | lower-casing keeps the length and maps each character on its own |
| Provider.IsCorrect | src/features/training/providers/logicTrainingProvider.ts:148-149 | compares the lower-cased answer with the lower-cased expected answer; `IsCorrectSpec` characterizes it |
| Provider.FormatExpected | src/features/training/providers/logicTrainingProvider.ts:150 | the expected answer itself; `IsCorrectCaseInsensitive` proves it is always accepted |
| Provider.IsCorrectSpec | src/features/training/providers/logicTrainingProvider.ts:148-149 | an answer is correct iff it has the expected length and agrees with the expected answer character by character, ignoring case |
| Provider.LowerIdempotent | src/features/training/providers/logicTrainingProvider.ts:148-149 | lower-casing twice equals lower-casing once |
| Provider.IsCorrectCaseInsensitive | src/features/training/providers/logicTrainingProvider.ts:148-150 | the formatted expected answer is always accepted, and an answer is accepted iff its lower-cased form is |
| Provider.CreateQuestion | src/features/training/providers/logicTrainingProvider.ts:131-133 | the question drills the requested skill, is at level 1 and has its answer among its options |
| Provider.CreateQuestionIgnoresSettings | src/features/training/providers/logicTrainingProvider.ts:131-133 | the settings, the table and the level do not affect the question |
| Provider.ProviderUpdateStats | src/features/training/providers/logicTrainingProvider.ts:136-137 | forwards the attempt to the engine's `updateStats`, so the table comes back unchanged (`Logic.StatsNeverAdapt`) |
| Session.NormalizeStep | src/features/training/useTrainingSession.ts:56-69 | the `forEach` body: an invalid entry is skipped; otherwise the control's value is clamped and written back only when it changed. `NormalizeProviderSettings`, `NormalizeKeepsInRangeSettings` and `NormalizeSkipsInvalidControls` state its effect |
| Session.NormalizeSettings | src/features/training/useTrainingSession.ts:45-75 | fails, with the source's message, iff the settings or the control list is missing; otherwise returns the in-order fold of the clamping step over the controls |
| Session.NormalizeProviderSettings | src/features/training/useTrainingSession.ts:45-75 | with the provider's controls, normalizing clamps the question count into [5, 50] and the time limit into [10, 120], and changes nothing else |
| Session.NormalizeWithinBoundsAndIdempotent | src/features/training/useTrainingSession.ts:45-75 | normalized settings are within bounds, and normalizing again changes nothing |
| Session.NormalizeKeepsInRangeSettings | src/features/training/useTrainingSession.ts:56-69 | for any control list, settings that are already in range for every control come back unchanged |
| Session.NormalizeSkipsInvalidControls | src/features/training/useTrainingSession.ts:56-60 | for any control list, dropping the invalid entries does not change the result |
| Session.MergeSettings | src/features/training/useTrainingSession.ts:163-168 | each stored key overrides the default, and each missing key keeps it |
| Session.FindControl | src/features/training/useTrainingSession.ts:520-522 | finds nothing iff no control has the id; otherwise returns the first control with that id |
| Session.Adjust | src/features/training/useTrainingSession.ts:518-536 | an unknown id changes nothing. The named control's value becomes clamp(current + step·delta, min, max), and no other field changes, whatever its value. The language control stores only "en" or "id". Settings within bounds stay within bounds |
| Session.DecreaseQuestionCount | src/features/training/useTrainingSession.ts:518-536 | n presses of "−1" on the question count give max(count − n, 5) and leave the other fields alone |
| Session.QuestionCountFloor | src/features/training/useTrainingSession.ts:518-536 | from the default of 10, five decrements reach 5 and a sixth stays at 5 |
| Session.TrimStart | src/features/training/useTrainingSession.ts:369 | the leading half of `trim`: never longer than the input; `TrimStartSpec` characterizes it |
| Session.TrimEnd | src/features/training/useTrainingSession.ts:369 | the trailing half of `trim`: never longer than the input; `TrimEndSpec` characterizes it |
| Session.Trim | src/features/training/useTrainingSession.ts:369 | `trim`: both halves in turn; `TrimEmptyIffBlank` and `TrimKeepsTrimmed` state its properties |
| Session.TrimStartSpec | src/features/training/useTrainingSession.ts:369 | the result is a suffix, everything dropped is white space, and a non-empty result does not start with white space |
| Session.TrimEndSpec | src/features/training/useTrainingSession.ts:369 | the result is a prefix, everything dropped is white space, and a non-empty result does not end with white space |
| Session.TrimEmptyIffBlank | src/features/training/useTrainingSession.ts:369 | trimming gives "" iff every character is white space |
| Session.SubmittedAnswer | src/features/training/useTrainingSession.ts:366-372 | the given answer, else the buffer, trimmed, sanitized and parsed in that order; `SubmittedAnswerRejectedIffBlank` and `ExpectedAnswerParses` state its outcomes |
| Session.ErrorMessage | src/features/training/useTrainingSession.ts:374-388 | the message for each parse error, with the keypad variant for an empty answer; `RejectedSubmitOnlySetsError` shows it is the only change |
| Session.SubmittedAnswerRejectedIffBlank | src/features/training/useTrainingSession.ts:366-373 | a submission is rejected iff the given answer, or else the buffer, is blank; it is then rejected as empty |
| Session.DropLast | src/features/training/useTrainingSession.ts:432-435 | "DEL" keeps "" as "" and otherwise removes exactly the last character |
| Session.ToggleMinus | src/features/training/useTrainingSession.ts:440-451 | a leading minus is removed; otherwise a minus is put in front |
| Session.KeypadEditing | src/features/training/useTrainingSession.ts:422-465 | "CLR" empties the buffer and "DEL" keeps "" empty. "−" does nothing when negatives are not allowed; otherwise a second press restores the buffer. A digit replaces a lone "0", gives "−d" after "−0", and is appended otherwise |
| Session.TypeKey | src/features/training/useTrainingSession.ts:454-462 | the updater for a digit key; `KeypadEditing` states its three cases |
| Session.PressKey | src/features/training/useTrainingSession.ts:422-465 | the buffer after a press that is not ignored; `KeypadEditing` states it key by key |
| Session.AfterKeypad | src/features/training/useTrainingSession.ts:422-465 | the state after a keypad press; `KeypadPressEffect` states it |
| Session.AllowNegative | src/features/training/useTrainingSession.ts:228-233 | false without a question or without the provider hook; `KeypadPressEffect` proves it is always false for this provider |
| Session.KeypadPressEffect | src/features/training/useTrainingSession.ts:422-465 | a keypad press is ignored once the question is answered; otherwise it clears the error and edits the buffer. This provider never allows negatives |
| Session.SkillFor | src/features/training/useTrainingSession.ts:258-261 | the picked skill in mix mode, the focused skill otherwise; `MixModeDrillsSyllogism` states the mix case |
| Session.InvalidLevelMessage | src/features/training/useTrainingSession.ts:270 | the thrown message, naming the skill |
| Session.QuestionFor | src/features/training/useTrainingSession.ts:255-286 | question creation succeeds iff the table has the mode's skill. The question then drills that skill, is at level 1 and has its answer among its options |
| Session.MixModeDrillsSyllogism | src/lib/logic.ts:79-80 | mix mode always asks the engine for syllogism, and creation never fails with a fresh table |
| Session.Tally | src/features/training/useTrainingSession.ts:347-350 | exactly one tally goes up by one: correct for a correct answer, wrong otherwise |
| Session.AfterBegin | src/features/training/useTrainingSession.ts:242-253 | `beginQuestion`'s state: the question shown, buffer, error and feedback cleared, unanswered, full time limit, start time now; `StartSessionResets` and `NextAdvancesOrCompletes` state each of these effects on the `startSession` and `handleNext` paths |
| Session.AfterStart | src/features/training/useTrainingSession.ts:288-307 | starting a session preserves the invariant |
| Session.AfterApply | src/features/training/useTrainingSession.ts:319-359 | recording a result on a pending question preserves the invariant |
| Session.AfterSubmit | src/features/training/useTrainingSession.ts:361-409 | submitting preserves the invariant; `RejectedSubmitOnlySetsError` and `SubmitGradesAnswer` state the two outcomes |
| Session.AfterTimeout | src/features/training/useTrainingSession.ts:504-510 | a timeout preserves the invariant |
| Session.AfterTick | src/features/training/useTrainingSession.ts:542-550 | a tick preserves the invariant; `TickOnlyWhileRunning` and `CountdownTimesOut` state its effect |
| Session.AfterAdvance | src/features/training/useTrainingSession.ts:486-492 | the advancing branch of `handleNext`: the next index, then a new question or the load error; `NextAdvancesOrCompletes` states both outcomes |
| Session.AfterNext | src/features/training/useTrainingSession.ts:467-502 | moving to the next question preserves the invariant |
| Session.AfterAutoAdvance | src/features/training/useTrainingSession.ts:557-568 | an auto-advance preserves the invariant; `AutoAdvanceOnlyWhenScheduled` states when it fires |
| Session.AfterLoad | src/features/training/useTrainingSession.ts:133-184 | loading from storage preserves the invariant, and normalized stored settings are within bounds |
| Session.StartSessionResets | src/features/training/useTrainingSession.ts:288-307 | the tallies are reset to 0/0, the index to 1 and the mode is set. On success, a fresh question is on the drill screen, with an empty buffer, no feedback and no error, unanswered, with the full time limit and the start time now. On failure, the menu shows with the start error |
| Session.OneResultPerQuestion | src/features/training/useTrainingSession.ts:319-359 | a result adds one to exactly one tally and marks the question answered; after that, submit, timeout and tick change nothing |
| Session.NothingPendingIgnoresResults | src/features/training/useTrainingSession.ts:504-510 | without a pending question, submit, timeout and tick change nothing |
| Session.RejectedSubmitOnlySetsError | src/features/training/useTrainingSession.ts:372-389 | a rejected answer sets only the error; stats, tallies, answered and feedback are untouched |
| Session.TimeoutIsWrongAnswer | src/features/training/useTrainingSession.ts:504-510 | a timeout is the result path with correct = false and timedOut = true. The wrong tally goes up and auto-advance is scheduled |
| Session.TimerRunning | src/features/training/useTrainingSession.ts:539 | the interval effect's guard: drill screen, a question, not answered; `CountdownTimesOut` uses it |
| Session.AutoAdvanceScheduled | src/features/training/useTrainingSession.ts:558 | the auto-advance effect's guard: feedback that is correct or timed out; `SubmitSchedulesAdvanceIffCorrect` and `TimeoutIsWrongAnswer` state when it holds |
| Session.SubmitSchedulesAdvanceIffCorrect | src/features/training/useTrainingSession.ts:557-564 | after a graded submission, auto-advance is scheduled iff the answer was correct |
| Session.SubmitGradesAnswer | src/features/training/useTrainingSession.ts:390-397 | a submission that parses is graded by `isCorrect` and recorded: the tally for that grade goes up (a wrong answer adds one to the wrong count only), the statistics take the attempt, the feedback carries grade, expected answer and elapsed time, the question is answered, and question, buffer, screen, index and settings stay |
| Session.AutoAdvanceOnlyWhenScheduled | src/features/training/useTrainingSession.ts:557-568 | the auto-advance firing runs `handleNext` exactly when feedback is correct or timed out, and otherwise changes nothing; in particular it does nothing after a wrong submitted answer |
| Session.TickOnlyWhileRunning | src/features/training/useTrainingSession.ts:538-552 | a tick off the drill screen, without a question or after the answer changes nothing; while the timer runs it lowers the countdown by one, and at 1 or below it sets 0 and times the question out |
| Session.CountdownTimesOut | src/features/training/useTrainingSession.ts:542-550 | each tick lowers the countdown by one while it is above 1; the tick that finds 1 sets 0 and times the question out; later ticks do nothing |
| Session.NextAdvancesOrCompletes | src/features/training/useTrainingSession.ts:467-502 | nothing happens until the question is answered. Past the last question, the summary shows, the question is cleared and the callback is called once (a second call does not call it again). Otherwise the index goes up by exactly one and stays within the question count. A question created for the mode's skill is then shown with an empty buffer, no feedback, no error, unanswered, the full time limit and the start time now; if creation fails, the load error is set and the answered question stays |
| Session.TrimKeepsTrimmed | src/features/training/useTrainingSession.ts:369 | a string with no white space at either end is its own trim |
| Session.BankAnswersAreTrimmed | src/lib/logic.ts:39-72 | every bank answer is non-empty, with no white space at either end |
| Session.QuestionForAnswerable | src/features/training/useTrainingSession.ts:255-286 | every question the controller creates has such an answer |
| Session.ExpectedAnswerParses | src/features/training/useTrainingSession.ts:366-372 | submitting the expected answer parses to that answer |
| Session.ExpectedAnswerGraded | src/features/training/useTrainingSession.ts:391-398 | submitting the expected answer records a correct result |
| Session.CorrectResultThenNext | src/features/training/useTrainingSession.ts:467-502 | after a correct result, handleNext either drills the next, answerable question or shows the summary; one more correct answer is counted |
| Session.CorrectRound | src/features/training/useTrainingSession.ts:361-502 | one correct answer plus handleNext moves a perfect run from k − 1 to k correct results |
| Session.AllCorrectRun | src/features/training/useTrainingSession.ts:361-502 | a started session answered perfectly ends on the summary with every answer correct and none wrong; stats and settings are unchanged |
| Session.StartedPerfectSession | src/features/training/useTrainingSession.ts:288-502 | startSession followed by a perfect run ends on the summary with questionCount correct and 0 wrong |
| Session.TrainingSession.constructor | src/features/training/useTrainingSession.ts:95-124 | the initial state: default stats, mix mode, normalized default settings, the menu, index 1, tallies 0/0 and the full time limit |
| Session.TrainingSession.SetStats | src/features/training/useTrainingSession.ts:111 | the `useState` setter: the stats becomes the given value and no other field changes |
| Session.TrainingSession.SetMode | src/features/training/useTrainingSession.ts:112 | the `useState` setter: the mode becomes the given value and no other field changes |
| Session.TrainingSession.SetSettings | src/features/training/useTrainingSession.ts:114 | the `useState` setter: the settings becomes the given value and no other field changes |
| Session.TrainingSession.SetQuestion | src/features/training/useTrainingSession.ts:115 | the `useState` setter: the question becomes the given value and no other field changes |
| Session.TrainingSession.SetAnswer | src/features/training/useTrainingSession.ts:116 | the `useState` setter: the answer buffer becomes the given value and no other field changes |
| Session.TrainingSession.SetFeedback | src/features/training/useTrainingSession.ts:117 | the `useState` setter: the feedback becomes the given value and no other field changes |
| Session.TrainingSession.SetError | src/features/training/useTrainingSession.ts:118 | the `useState` setter: the error becomes the given value and no other field changes |
| Session.TrainingSession.SetSession | src/features/training/useTrainingSession.ts:119-122 | the `useState` setter: the session tallies becomes the given value and no other field changes |
| Session.TrainingSession.SetQuestionIndex | src/features/training/useTrainingSession.ts:123 | the `useState` setter: the question index becomes the given value and no other field changes |
| Session.TrainingSession.SetTimeLeft | src/features/training/useTrainingSession.ts:124 | the `useState` setter: the countdown becomes the given value and no other field changes |
| Session.TrainingSession.SetAnswered | src/features/training/useTrainingSession.ts:185 | the `useState` setter: the answered flag becomes the given value and no other field changes |
| Session.TrainingSession.LoadFromStorage | src/features/training/useTrainingSession.ts:133-184 | loads at most once; stored stats and mode override; stored settings are merged over the defaults and normalized; the invariant is kept |
| Session.TrainingSession.BeginQuestion | src/features/training/useTrainingSession.ts:242-253 | shows the question with a cleared buffer, error and feedback, unanswered, with the start time now and the full time limit |
| Session.TrainingSession.CreateQuestion | src/features/training/useTrainingSession.ts:255-286 | returns the question for the mode and skill, and on failure also sets the generation error |
| Session.TrainingSession.StartSession | src/features/training/useTrainingSession.ts:288-307 | the new state is the start transition, and the invariant is kept |
| Session.TrainingSession.GoToMenu | src/features/training/useTrainingSession.ts:309-317 | shows the menu and clears the question, feedback, error, buffer and answered flag; nothing else changes |
| Session.TrainingSession.ApplyResult | src/features/training/useTrainingSession.ts:319-359 | the new state is the result transition |
| Session.TrainingSession.HandleSubmit | src/features/training/useTrainingSession.ts:361-409 | the new state is the submit transition, and the invariant is kept |
| Session.TrainingSession.HandleAnswerChange | src/features/training/useTrainingSession.ts:411-420 | the buffer becomes the sanitized input and the error is cleared; nothing else changes |
| Session.TrainingSession.HandleKeypadPress | src/features/training/useTrainingSession.ts:422-465 | the new state is the keypad transition, and the invariant is kept |
| Session.TrainingSession.Advance | src/features/training/useTrainingSession.ts:486-492 | the new state is the advancing branch of the next transition |
| Session.TrainingSession.HandleNext | src/features/training/useTrainingSession.ts:467-502 | the new state and the completion flag are the next transition, and the invariant is kept |
| Session.TrainingSession.HandleTimeout | src/features/training/useTrainingSession.ts:504-510 | the new state is the timeout transition, and the invariant is kept |
| Session.TrainingSession.ResetStats | src/features/training/useTrainingSession.ts:512-516 | the table becomes a fresh default table; nothing else changes |
| Session.TrainingSession.AdjustSetting | src/features/training/useTrainingSession.ts:518-536 | the settings become the adjusted settings, and the invariant is kept |
| Session.TrainingSession.SetScreen | src/features/training/useTrainingSession.ts:113 | only the screen changes, and a state that satisfies the invariant still does |
| Session.TrainingSession.Tick | src/features/training/useTrainingSession.ts:538-555 | the new state is the tick transition, and the invariant is kept |
| Session.TrainingSession.FireAutoAdvance | src/features/training/useTrainingSession.ts:557-568 | runs handleNext only when the feedback is correct or timed out, and the invariant is kept |

## Left out

- Rendering, React effect scheduling and re-renders are not modelled. Each action's state updates apply at once, in program order. Stale closures and update batching are outside the model.
- Writing the session and settings to storage (useTrainingSession.ts:192-203) is not modelled. The storage helper `@/lib/storage` is not part of this model. Stored values reach `LoadFromStorage` as already-decoded optional parameters, and the JSON `typeof` checks are not modelled.
- `Session.MergeSettings` and `Session.TrainingSession.LoadFromStorage`: stored settings and `delta` are JavaScript numbers in the source but integers in the model. A stored fraction such as 10.5 passes normalization in the source, and `handleNext` then ends the run after 10 questions. A stored `null` is clamped to the minimum. The model can express neither.
- `Session.DropLast`: `slice(0, -1)` removes one UTF-16 code unit and can split a surrogate pair. The model removes one whole character.
- `Session.TrainingSession.LoadFromStorage`: a stored mode is an arbitrary string in the source. The model restricts it to a valid `Mode`.
- The `!skill` guard in `createQuestion` (useTrainingSession.ts:263-265) is not modelled. A skill key is never empty, so it cannot fire.
- Four catch paths are not modelled:
  - the generic catch in `normalizeSettings` (useTrainingSession.ts:71-74);
  - the "Stats update returned null" path and its "Failed to record response" message in `applyResult` (useTrainingSession.ts:333-356), because the stubbed engine always returns the table;
  - the catch blocks of the storage load;
  - the normalization error on load, because both arguments are always present.
- Timers are modelled only through the methods the environment calls: `Tick` for `setInterval` and `FireAutoAdvance` for `setTimeout`. Their scheduling is left out. So are `clearInterval` and `clearAdvanceTimer`, and the timer cleanup on unmount.
- Console logging is not modelled.
- Labels, hints, `formatValue`, `keypadRows`, skill definitions, `getQuestionText` and `getQuestionOptions` are not modelled. They are presentation only.
- `Provider.Lower`: `toLowerCase` is modelled for ASCII letters only. Unicode case mapping is outside the model.
- `Session.NormalizeWithinBoundsAndIdempotent`: "within bounds" and idempotence are proved for the provider's own control list. They do not hold for every list, since two controls for the same field with different bounds overwrite each other. The general facts proved are that in-range settings come back unchanged and that invalid entries are skipped.
- `Session.KeypadEditing`: the double press of "−" restores the buffer only when it does not start with "−−". Such a buffer cannot come from the keypad, only from `handleAnswerChange`.
- `Session.Invariant` bounds the question index by 50, the largest allowed question count, not by the current count. `adjustSetting` can lower the count during a session; `handleNext` then goes to the summary.
- `Session.AllCorrectRun` covers runs in which every answer is the expected one. For mixed runs each step is stated on its own: `SubmitGradesAnswer` grades and tallies a submitted answer, `TimeoutIsWrongAnswer` a timeout, `AutoAdvanceOnlyWhenScheduled` says when the auto-advance runs `handleNext`, and `NextAdvancesOrCompletes` what `handleNext` does. No lemma states a mixed run end to end.
- The provider's `allowNegative` hook does not exist for this provider. `Provider.AllowNegativeHook` is `None`, so the negative-answer branch of the keypad is stated only through `PressKey` with `allowNegative` as a parameter.
- The statistics stubs are modelled as they are. Streak-based level changes, a growing history, `MAX_LEVEL` clamping and real accuracy or weakest-skill selection do not exist in the code.

=== FILE: logic.dfy ===
/**
 * The difficulty engine of src/lib/logic.ts: skill keys, questions, the per-skill
 * statistics table and the engine's operations. The file is marked as dummy code:
 * the question bank holds one level-1 question per skill, and the statistics
 * functions are stubs (`UpdateStats` returns its input, accuracy and average time
 * are 0, the target time is 5000 ms, and the weakest skill is always syllogism).
 * The model keeps exactly that behaviour.
 */
module Logic {
  import opened Wrappers

  /** The four reasoning skills. */
  datatype SkillKey = Syllogism | Fallacy | Deduction | Induction {
    /** The skill's key as a string, as it appears in messages and in the stats table. */
    function Key(): string {
      match this
      case Syllogism => "syllogism"
      case Fallacy => "fallacy"
      case Deduction => "deduction"
      case Induction => "induction"
    }
  }

  const AllSkills: set<SkillKey> := {Syllogism, Fallacy, Deduction, Induction}

  /** A multiple-choice question. */
  datatype Question = Question(
    id: string,
    skill: SkillKey,
    level: int,
    text: string,
    options: seq<string>,
    answer: string)

  const MaxLevel := 10

  /** One past attempt; the stub engine never records any. */
  datatype Attempt = Attempt(correct: bool, ms: int)

  /** Per-skill statistics. */
  datatype SkillStats = SkillStats(level: int, streak: int, mistakeStreak: int, history: seq<Attempt>)

  /**
   * The statistics table, keyed by skill. A table read back from storage is not
   * validated, so it may lack entries; that is why it is a map and not a record.
   */
  type Stats = map<SkillKey, SkillStats>

  /** A fresh table: every skill present, at level 1, with no streaks and no history. */
  function CreateDefaultStats(): (r: Stats)
    ensures r.Keys == AllSkills
    ensures forall k :: k in r ==> r[k].level == 1 && r[k].streak == 0 && r[k].mistakeStreak == 0
    ensures forall k :: k in r ==> r[k].history == []
  {
    var initial := SkillStats(1, 0, 0, []);
    map[Syllogism := initial, Fallacy := initial, Deduction := initial, Induction := initial]
  }

  /** The literal question array searched by `generateQuestion`, one question per skill. */
  const QuestionBank: seq<Question> := [
    Question("1", Syllogism, 1,
      "All men are mortal. Socrates is a man. Therefore, Socrates is mortal.",
      ["Valid", "Invalid"], "Valid"),
    Question("2", Fallacy, 1,
      "You're either with us or against us.",
      ["False Dilemma", "Ad Hominem", "Strawman"], "False Dilemma"),
    Question("3", Deduction, 1,
      "If it rains, the ground will be wet. It is raining. Therefore...",
      ["The ground is wet", "The ground is dry", "It is sunny"], "The ground is wet"),
    Question("4", Induction, 1,
      "The sun has risen every day so far. Therefore...",
      ["The sun will rise tomorrow", "The sun will not rise tomorrow", "The sun is a star"],
      "The sun will rise tomorrow")
  ]

  /** `Array.prototype.find` with the predicate `q.skill === skill`: the first match, if any. */
  function FindBySkill(qs: seq<Question>, skill: SkillKey): (r: Option<Question>)
    ensures r.None? <==> forall i :: 0 <= i < |qs| ==> qs[i].skill != skill
    ensures r.Some? ==> r.value in qs && r.value.skill == skill
    ensures r.Some? ==> FirstWithSkill(qs, skill) < |qs| && r.value == qs[FirstWithSkill(qs, skill)]
  {
    if qs == [] then None
    else if qs[0].skill == skill then Some(qs[0])
    else FindBySkill(qs[1..], skill)
  }

  /** The index of the first question with the given skill, or |qs| when there is none. */
  function FirstWithSkill(qs: seq<Question>, skill: SkillKey): (k: nat)
    ensures k <= |qs|
    ensures forall i :: 0 <= i < k ==> qs[i].skill != skill
    ensures k < |qs| ==> qs[k].skill == skill
  {
    if qs == [] then 0
    else if qs[0].skill == skill then 0
    else 1 + FirstWithSkill(qs[1..], skill)
  }

  /**
   * The question for a skill: the first bank entry with that skill, falling back on
   * the first entry. The level is ignored.
   */
  function GenerateQuestion(skill: SkillKey, level: int): Question
  {
    FindBySkill(QuestionBank, skill).GetOr(QuestionBank[0])
  }

  /** Stub: accuracy is always 0. */
  function GetAccuracy(stats: Stats): int { 0 }

  /** Stub: the average answer time is always 0. */
  function GetAverageMs(stats: Stats): int { 0 }

  /** Stub: the target answer time is 5000 ms at every level. */
  function GetTargetMs(level: int): int { 5000 }

  /** Stub: the weakest skill is always syllogism. */
  function GetWeakestSkill(stats: Stats): SkillKey { Syllogism }

  /** Stub: the skill drilled in mix mode is always syllogism. */
  function PickSkill(stats: Stats): SkillKey { Syllogism }

  /** Stub: recording an attempt returns the table unchanged. */
  function UpdateStats(stats: Stats, skill: SkillKey, correct: bool, ms: int): Stats { stats }

  /** A recorded outcome, as the session controller passes it to `UpdateStats`. */
  datatype Outcome = Outcome(skill: SkillKey, correct: bool, ms: int)

  /** The table after feeding it a series of outcomes, oldest first. */
  function UpdateAll(stats: Stats, outcomes: seq<Outcome>): Stats
    decreases |outcomes|
  {
    if outcomes == [] then stats
    else
      var o := outcomes[|outcomes| - 1];
      UpdateStats(UpdateAll(stats, outcomes[..|outcomes| - 1]), o.skill, o.correct, o.ms)
  }

  /**
   * Whatever a learner answers, the statistics never move: no level, streak,
   * mistake streak or history changes, so no skill ever leaves the level it has.
   */
  lemma {:induction false} StatsNeverAdapt(stats: Stats, outcomes: seq<Outcome>)
    ensures UpdateAll(stats, outcomes) == stats
    ensures forall k :: k in stats ==> k in UpdateAll(stats, outcomes) && UpdateAll(stats, outcomes)[k].level == stats[k].level
    decreases |outcomes|
  {
    if outcomes != [] {
      StatsNeverAdapt(stats, outcomes[..|outcomes| - 1]);
    }
  }

  /** The generated question is always one of the bank's entries. */
  lemma GeneratedQuestionInBank(skill: SkillKey, level: int)
    ensures GenerateQuestion(skill, level) in QuestionBank
  {
    match FindBySkill(QuestionBank, skill)
    case None =>
    case Some(q) =>
  }

  /** Every skill has a question of its own: the generated question drills the requested skill, at any level. */
  lemma GenerateQuestionSkill(skill: SkillKey, level: int)
    ensures GenerateQuestion(skill, level).skill == skill
  {
    var i := match skill
      case Syllogism => 0
      case Fallacy => 1
      case Deduction => 2
      case Induction => 3;
    assert QuestionBank[i].skill == skill;
  }

  /** Every question the engine can produce is at level 1 and its answer is one of its options. */
  lemma GeneratedQuestionWellFormed(skill: SkillKey, level: int)
    ensures GenerateQuestion(skill, level).level == 1
    ensures GenerateQuestion(skill, level).answer in GenerateQuestion(skill, level).options
  {
    var q := GenerateQuestion(skill, level);
    GeneratedQuestionInBank(skill, level);
    assert q == QuestionBank[0] || q == QuestionBank[1] || q == QuestionBank[2] || q == QuestionBank[3];
  }

  /**
   * The summary and selection stubs are constant: accuracy and average time 0, a
   * 5000 ms target at every level, and syllogism as both the weakest and the picked skill.
   */
  lemma EngineStubsAreConstant(stats: Stats, level: int)
    ensures GetAccuracy(stats) == 0 && GetAverageMs(stats) == 0
    ensures GetTargetMs(level) == GetTargetMs(1) == 5000
    ensures PickSkill(stats) == GetWeakestSkill(stats) == Syllogism
  {
  }
}

=== FILE: provider.dfy ===
/**
 * The logic training provider of
 * src/features/training/providers/logicTrainingProvider.ts: the default settings,
 * the three setting controls, answer parsing and grading, and the adapters that
 * forward question creation and statistics updates to the difficulty engine.
 * Every member is a pure function; settings are values rebuilt by each update.
 */
module Provider {
  import opened Wrappers
  import opened Logic

  /** The learner's settings. `language` is free text: a stored value is not checked. */
  datatype Settings = Settings(questionCount: int, timeLimitSeconds: int, language: string)

  /** `Math.min(Math.max(value, min), max)`. */
  function Clamp(value: int, min: int, max: int): (r: int)
    ensures min <= max ==> min <= r <= max
    ensures min <= value <= max ==> r == value
    ensures value < min <= max ==> r == min
    ensures max < value || max < min ==> r == max
  {
    var raised := if value < min then min else value;
    if raised < max then raised else max
  }

  const DefaultSettings := Settings(10, 20, "en")

  /** The controls, by the `id` of each entry of `settingControls`. */
  datatype ControlId = QuestionCount | TimeLimitSeconds | Language {
    /** The control's string id, which `adjustSetting` looks up. */
    function Name(): string {
      match this
      case QuestionCount => "questionCount"
      case TimeLimitSeconds => "timeLimitSeconds"
      case Language => "language"
    }
  }

  /** A setting control: which field it edits, its bounds and its step. */
  datatype SettingControl = SettingControl(id: ControlId, min: int, max: int, step: int)

  const QuestionCountControl := SettingControl(QuestionCount, 5, 50, 1)
  const TimeLimitControl := SettingControl(TimeLimitSeconds, 10, 120, 5)
  const LanguageControl := SettingControl(Language, 0, 1, 1)

  /** `settingControls`, in declaration order. */
  const SettingControls: seq<SettingControl> := [QuestionCountControl, TimeLimitControl, LanguageControl]

  /** The declared control for an id. */
  function ControlFor(id: ControlId): (c: SettingControl)
    ensures c in SettingControls && c.id == id
  {
    match id
    case QuestionCount => QuestionCountControl
    case TimeLimitSeconds => TimeLimitControl
    case Language => LanguageControl
  }

  /** A control's `getValue`: the number it shows for the settings; English is 0 and anything else 1. */
  function GetValue(id: ControlId, s: Settings): int
  {
    match id
    case QuestionCount => s.questionCount
    case TimeLimitSeconds => s.timeLimitSeconds
    case Language => if s.language == "en" then 0 else 1
  }

  /**
   * A control's `setValue`: a copy of the settings with the control's own field
   * replaced. The two numeric controls clamp into their bounds; the language
   * control stores "en" for 0 and "id" for anything else.
   */
  function SetValue(id: ControlId, s: Settings, value: int): (r: Settings)
    ensures id != QuestionCount ==> r.questionCount == s.questionCount
    ensures id != TimeLimitSeconds ==> r.timeLimitSeconds == s.timeLimitSeconds
    ensures id != Language ==> r.language == s.language
    ensures ControlFor(id).min <= GetValue(id, r) <= ControlFor(id).max
    ensures ControlFor(id).min <= value <= ControlFor(id).max ==> GetValue(id, r) == value
    ensures id != Language && value < ControlFor(id).min ==> GetValue(id, r) == ControlFor(id).min
    ensures id != Language && ControlFor(id).max < value ==> GetValue(id, r) == ControlFor(id).max
    ensures id == Language ==> (r.language == "en" <==> value == 0)
    ensures id == Language ==> r.language == "en" || r.language == "id"
  {
    match id
    case QuestionCount => s.(questionCount := Clamp(value, 5, 50))
    case TimeLimitSeconds => s.(timeLimitSeconds := Clamp(value, 10, 120))
    case Language => s.(language := if value == 0 then "en" else "id")
  }

  /** Every control shows a value within its own bounds. */
  predicate WithinBounds(s: Settings) {
    && QuestionCountControl.min <= s.questionCount <= QuestionCountControl.max
    && TimeLimitControl.min <= s.timeLimitSeconds <= TimeLimitControl.max
  }

  /** The defaults lie within the bounds of every control. */
  lemma DefaultSettingsWithinBounds()
    ensures WithinBounds(DefaultSettings)
    ensures forall c :: c in SettingControls ==> c.min <= GetValue(c.id, DefaultSettings) <= c.max
  {
  }

  /** For the language control, a value of 0 or 1 survives a set followed by a get, and "en" or "id" a get followed by a set. */
  lemma LanguageRoundTrip(s: Settings, v: int)
    requires v == 0 || v == 1
    ensures GetValue(Language, SetValue(Language, s, v)) == v
    ensures s.language == "en" || s.language == "id" ==> SetValue(Language, s, GetValue(Language, s)) == s
  {
  }

  /** Why an answer could not be parsed. */
  datatype ParseError = Empty | Incomplete | Invalid

  /** The provider's `AnswerParseResult`. */
  datatype ParseResult = Parsed(value: string) | Rejected(error: ParseError)

  /** `parseStringInput`: the empty string is rejected as empty, any other string is the answer itself. */
  function ParseStringInput(value: string): (r: ParseResult)
    ensures r.Rejected? <==> value == ""
    ensures r.Rejected? ==> r.error == Empty
    ensures r.Parsed? ==> r.value == value
  {
    if |value| == 0 then Rejected(Empty) else Parsed(value)
  }

  /** `answer.sanitizeInput`: the identity. */
  function SanitizeInput(raw: string): string { raw }

  /** `answer.parseInput`. */
  function ParseInput(value: string): ParseResult { ParseStringInput(value) }

  /** The messages of `answer.errors`. */
  const ErrorEmpty := "Please select an answer."
  const ErrorEmptyKeypad := "Please select an answer."
  const ErrorIncomplete := "Please select an answer."
  const ErrorInvalid := "Invalid selection."

  /** `toLowerCase` on one character (ASCII letters only). */
  function LowerChar(c: char): char {
    if 'A' <= c <= 'Z' then (c as int + 32) as char else c
  }

  /** `toLowerCase` on a string, character by character. */
  function Lower(s: string): (r: string)
    ensures |r| == |s|
  {
    if s == [] then [] else [LowerChar(s[0])] + Lower(s[1..])
  }

  /** Lower-casing maps every character on its own. */
  lemma {:induction false} LowerSpec(s: string)
    ensures forall i :: 0 <= i < |s| ==> Lower(s)[i] == LowerChar(s[i])
    decreases |s|
  {
    if s != [] {
      LowerSpec(s[1..]);
      assert forall i :: 1 <= i < |s| ==> Lower(s)[i] == Lower(s[1..])[i - 1];
    }
  }

  /** `answer.isCorrect`: the answer equals the expected one up to letter case. */
  function IsCorrect(value: string, q: Question): bool
  {
    Lower(value) == Lower(q.answer)
  }

  /** `answer.formatExpected`: the expected answer as shown in feedback. */
  function FormatExpected(q: Question): string { q.answer }

  /** An answer is correct exactly when it has the expected length and agrees with it character by character, ignoring case. */
  lemma IsCorrectSpec(value: string, q: Question)
    ensures IsCorrect(value, q) <==>
      |value| == |q.answer| && forall i :: 0 <= i < |value| ==> LowerChar(value[i]) == LowerChar(q.answer[i])
  {
    LowerSpec(value);
    LowerSpec(q.answer);
  }

  /** Lower-casing twice is lower-casing once. */
  lemma LowerIdempotent(s: string)
    ensures Lower(Lower(s)) == Lower(s)
  {
    LowerSpec(s);
    LowerSpec(Lower(s));
    assert forall i :: 0 <= i < |s| ==> LowerChar(LowerChar(s[i])) == LowerChar(s[i]);
  }

  /**
   * Grading ignores letter case: the expected answer as formatted is always
   * accepted, and an answer is accepted exactly when its lower-cased form is.
   */
  lemma IsCorrectCaseInsensitive(value: string, q: Question)
    ensures IsCorrect(FormatExpected(q), q)
    ensures IsCorrect(Lower(value), q) <==> IsCorrect(value, q)
  {
    LowerIdempotent(value);
  }

  /**
   * The provider's `createQuestion`: the settings and the table are ignored and the
   * engine's question for the skill is returned.
   */
  function CreateQuestion(skill: SkillKey, level: int, settings: Settings, stats: Stats): (q: Question)
    ensures q.skill == skill && q.level == 1 && q.answer in q.options
  {
    GenerateQuestionSkill(skill, level);
    GeneratedQuestionWellFormed(skill, level);
    GenerateQuestion(skill, level)
  }

  /** Two calls that differ only in the settings, the table and the level return the same question. */
  lemma CreateQuestionIgnoresSettings(skill: SkillKey, l1: int, l2: int, s1: Settings, s2: Settings, t1: Stats, t2: Stats)
    ensures CreateQuestion(skill, l1, s1, t1) == CreateQuestion(skill, l2, s2, t2)
  {
  }

  /** The provider's `updateStats` adapter. */
  function ProviderUpdateStats(stats: Stats, skill: SkillKey, correct: bool, elapsedMs: int): Stats
  {
    UpdateStats(stats, skill, correct, elapsedMs)
  }

  /**
   * The provider's optional `answer.allowNegative` hook. The logic provider has
   * none (its answers are option texts), so negatives are never allowed.
   */
  const AllowNegativeHook: Option<(Question, Settings) -> bool> := None
}

=== FILE: session.dfy ===
/**
 * The session controller of src/features/training/useTrainingSession.ts, bound to
 * the logic provider. The hook's React state becomes the fields of the class
 * `TrainingSession`; each exported action becomes a method. Every method's new
 * state is given by a transition function on `State`, a snapshot of all fields,
 * and the properties of the controller are lemmas about those functions.
 *
 * The clock (`Date.now()`) is the parameter `now` of the methods that read it.
 * The one-second interval and the 700 ms auto-advance timeout are the methods
 * `Tick` and `FireAutoAdvance`, which the environment calls when the timers fire.
 */
module Session {
  import opened Wrappers
  import opened Logic
  import opened Provider

  /** The screens of the application. */
  datatype Screen = Menu | Drill | SettingsView | Summary | StatsView | Learn

  /** `"mix"` or a single skill. */
  datatype Mode = Mix | Focus(skill: SkillKey)

  /** The verdict shown after a question. */
  datatype Feedback = Feedback(correct: bool, expected: string, ms: int, skill: SkillKey, level: int, timedOut: bool)

  /** The tallies of the running session. */
  datatype SessionCounts = SessionCounts(correct: nat, wrong: nat)

  const NormalizeMissingMessage := "Settings and controls are required for normalization"
  const GenerateFailedMessage := "Failed to generate question. Please try again."
  const StartFailedMessage := "Failed to start training session. Please try again."
  const NextFailedMessage := "Failed to load next question. Please try again."
  /** The message `createQuestion` throws when the table has no entry for the skill. */
  function InvalidLevelMessage(skill: SkillKey): string {
    "Invalid level for skill: " + skill.Key()
  }

  // ---------------------------------------------------------------------------
  // normalizeSettings
  // ---------------------------------------------------------------------------

  /**
   * One pass of the `forEach` in `normalizeSettings`. A missing control, or one
   * without `getValue`, is `None` and is skipped; otherwise the control's value is
   * clamped into its bounds and written back only if clamping changed it.
   */
  function NormalizeStep(next: Settings, slot: Option<SettingControl>): Settings
  {
    match slot
    case None => next
    case Some(c) =>
      var value := GetValue(c.id, next);
      var clamped := Clamp(value, c.min, c.max);
      if value != clamped then SetValue(c.id, next, clamped) else next
  }

  /** The settings after the `forEach` has visited every entry of `slots`, in order. */
  function NormalizeWith(s: Settings, slots: seq<Option<SettingControl>>): Settings
    decreases |slots|
  {
    if slots == [] then s
    else NormalizeStep(NormalizeWith(s, slots[..|slots| - 1]), slots[|slots| - 1])
  }

  /** The provider's controls as the hook passes them to `normalizeSettings`. */
  const ProviderSlots: seq<Option<SettingControl>> :=
    [Some(QuestionCountControl), Some(TimeLimitControl), Some(LanguageControl)]

  /**
   * `normalizeSettings`: fails when the settings or the control list is missing;
   * otherwise visits the controls in order, reassigning `next`.
   */
  method NormalizeSettings(settings: Option<Settings>, controls: Option<seq<Option<SettingControl>>>)
    returns (r: Result<Settings>)
    ensures r.Failure? <==> settings.None? || controls.None?
    ensures r.Failure? ==> r.error == NormalizeMissingMessage
    ensures r.Success? ==> r.value == NormalizeWith(settings.value, controls.value)
  {
    if settings.None? || controls.None? {
      return Failure(NormalizeMissingMessage);
    }
    var cs := controls.value;
    var next := settings.value;
    for i := 0 to |cs|
      invariant next == NormalizeWith(settings.value, cs[..i])
    {
      assert cs[..i + 1][..i] == cs[..i];
      match cs[i]
      case None =>
      case Some(c) =>
        var value := GetValue(c.id, next);
        var clamped := Clamp(value, c.min, c.max);
        if value != clamped {
          next := SetValue(c.id, next, clamped);
        }
    }
    assert cs[..|cs|] == cs;
    return Success(next);
  }

  /**
   * With the provider's controls, normalizing clamps the question count into
   * [5, 50] and the time limit into [10, 120] and leaves the language alone.
   */
  lemma NormalizeProviderSettings(s: Settings)
    ensures NormalizeWith(s, ProviderSlots)
      == s.(questionCount := Clamp(s.questionCount, 5, 50), timeLimitSeconds := Clamp(s.timeLimitSeconds, 10, 120))
  {
    var s1 := NormalizeStep(s, Some(QuestionCountControl));
    var s2 := NormalizeStep(s1, Some(TimeLimitControl));
    assert ProviderSlots[..0] == [];
    assert ProviderSlots[..1][..0] == [];
    assert ProviderSlots[..2][..1] == ProviderSlots[..1];
    assert ProviderSlots[..3][..2] == ProviderSlots[..2];
    assert NormalizeWith(s, ProviderSlots[..1]) == s1;
    assert NormalizeWith(s, ProviderSlots[..2]) == s2;
    assert ProviderSlots[..3] == ProviderSlots;
  }

  /** Normalized settings lie within every control's bounds, and normalizing again changes nothing. */
  lemma NormalizeWithinBoundsAndIdempotent(s: Settings)
    ensures WithinBounds(NormalizeWith(s, ProviderSlots))
    ensures NormalizeWith(NormalizeWith(s, ProviderSlots), ProviderSlots) == NormalizeWith(s, ProviderSlots)
  {
    NormalizeProviderSettings(s);
    NormalizeProviderSettings(NormalizeWith(s, ProviderSlots));
  }

  /** A control whose value is already within its bounds is not rewritten. */
  predicate SlotInRange(s: Settings, slot: Option<SettingControl>) {
    slot.Some? ==> slot.value.min <= GetValue(slot.value.id, s) <= slot.value.max
  }

  /** For any control list: settings on which every control is already in range come back unchanged. */
  lemma {:induction false} NormalizeKeepsInRangeSettings(s: Settings, slots: seq<Option<SettingControl>>)
    requires forall i :: 0 <= i < |slots| ==> SlotInRange(s, slots[i])
    ensures NormalizeWith(s, slots) == s
    decreases |slots|
  {
    if slots != [] {
      NormalizeKeepsInRangeSettings(s, slots[..|slots| - 1]);
    }
  }

  /** The control list without its invalid entries. */
  function PresentSlots(slots: seq<Option<SettingControl>>): (r: seq<Option<SettingControl>>)
    ensures forall i :: 0 <= i < |r| ==> r[i].Some?
    decreases |slots|
  {
    if slots == [] then []
    else if slots[|slots| - 1].None? then PresentSlots(slots[..|slots| - 1])
    else PresentSlots(slots[..|slots| - 1]) + [slots[|slots| - 1]]
  }

  /** For any control list: invalid entries are skipped, so dropping them does not change the outcome. */
  lemma {:induction false} NormalizeSkipsInvalidControls(s: Settings, slots: seq<Option<SettingControl>>)
    ensures NormalizeWith(s, slots) == NormalizeWith(s, PresentSlots(slots))
    decreases |slots|
  {
    if slots != [] {
      var init := slots[..|slots| - 1];
      NormalizeSkipsInvalidControls(s, init);
      if slots[|slots| - 1].Some? {
        var p := PresentSlots(init) + [slots[|slots| - 1]];
        assert p[..|p| - 1] == PresentSlots(init);
      }
    }
  }

  // ---------------------------------------------------------------------------
  // Settings loaded from storage and adjusted by the learner
  // ---------------------------------------------------------------------------

  /** A stored settings object: any subset of the keys. */
  datatype SavedSettings = SavedSettings(questionCount: Option<int>, timeLimitSeconds: Option<int>, language: Option<string>)

  /** A stored session object: optional statistics and mode. */
  datatype SavedSession = SavedSession(stats: Option<Stats>, mode: Option<Mode>)

  /** `{ ...defaults, ...saved }`: every stored key overrides the default. */
  function MergeSettings(defaults: Settings, saved: SavedSettings): (r: Settings)
    ensures saved.questionCount.Some? ==> r.questionCount == saved.questionCount.value
    ensures saved.questionCount.None? ==> r.questionCount == defaults.questionCount
    ensures saved.timeLimitSeconds.Some? ==> r.timeLimitSeconds == saved.timeLimitSeconds.value
    ensures saved.timeLimitSeconds.None? ==> r.timeLimitSeconds == defaults.timeLimitSeconds
    ensures saved.language.Some? ==> r.language == saved.language.value
    ensures saved.language.None? ==> r.language == defaults.language
  {
    Settings(
      saved.questionCount.GetOr(defaults.questionCount),
      saved.timeLimitSeconds.GetOr(defaults.timeLimitSeconds),
      saved.language.GetOr(defaults.language))
  }

  /** `controls.find(item => item.id === controlId)`. */
  function FindControl(cs: seq<SettingControl>, controlId: string): (r: Option<SettingControl>)
    ensures r.None? <==> forall i :: 0 <= i < |cs| ==> cs[i].id.Name() != controlId
    ensures r.Some? ==> r.value in cs && r.value.id.Name() == controlId
    ensures r.Some? ==> FirstControl(cs, controlId) < |cs| && r.value == cs[FirstControl(cs, controlId)]
  {
    if cs == [] then None
    else if cs[0].id.Name() == controlId then Some(cs[0])
    else FindControl(cs[1..], controlId)
  }

  /** The index of the first control with the given id, or |cs| when there is none. */
  function FirstControl(cs: seq<SettingControl>, controlId: string): (k: nat)
    ensures k <= |cs|
    ensures forall i :: 0 <= i < k ==> cs[i].id.Name() != controlId
    ensures k < |cs| ==> cs[k].id.Name() == controlId
  {
    if cs == [] then 0
    else if cs[0].id.Name() == controlId then 0
    else 1 + FirstControl(cs[1..], controlId)
  }

  /**
   * The updater that `adjustSetting` hands to `setSettings`: an unknown id leaves
   * the settings alone; otherwise the control's value moves by `step * delta`,
   * clamped into the control's bounds, and no other field changes.
   */
  function Adjust(s: Settings, controlId: string, delta: int): (r: Settings)
    ensures controlId !in {"questionCount", "timeLimitSeconds", "language"} ==> r == s
    ensures forall c :: c in SettingControls && c.id.Name() == controlId ==>
      GetValue(c.id, r) == Clamp(GetValue(c.id, s) + c.step * delta, c.min, c.max)
    ensures controlId != "questionCount" ==> r.questionCount == s.questionCount
    ensures controlId != "timeLimitSeconds" ==> r.timeLimitSeconds == s.timeLimitSeconds
    ensures controlId != "language" ==> r.language == s.language
    ensures controlId == "language" ==> r.language == "en" || r.language == "id"
    ensures WithinBounds(s) ==> WithinBounds(r)
  {
    match FindControl(SettingControls, controlId)
    case None => s
    case Some(c) => SetValue(c.id, s, Clamp(GetValue(c.id, s) + c.step * delta, c.min, c.max))
  }

  /** `n` presses of the same adjustment button. */
  function AdjustTimes(s: Settings, controlId: string, delta: int, n: nat): Settings
  {
    if n == 0 then s else Adjust(AdjustTimes(s, controlId, delta, n - 1), controlId, delta)
  }

  /** Pressing "-" on the question count `n` times walks down one at a time and stops at the minimum 5. */
  lemma {:induction false} DecreaseQuestionCount(s: Settings, n: nat)
    requires WithinBounds(s)
    ensures AdjustTimes(s, "questionCount", -1, n).questionCount == if s.questionCount - n < 5 then 5 else s.questionCount - n
    ensures AdjustTimes(s, "questionCount", -1, n).timeLimitSeconds == s.timeLimitSeconds
    ensures AdjustTimes(s, "questionCount", -1, n).language == s.language
  {
    if n > 0 {
      DecreaseQuestionCount(s, n - 1);
      var prev := AdjustTimes(s, "questionCount", -1, n - 1);
      assert QuestionCountControl in SettingControls;
      assert GetValue(QuestionCount, Adjust(prev, "questionCount", -1)) == Clamp(prev.questionCount - 1, 5, 50);
    }
  }

  /** From the default of 10, five decrements reach 5 and a sixth stays at 5. */
  lemma QuestionCountFloor()
    ensures AdjustTimes(DefaultSettings, "questionCount", -1, 5).questionCount == 5
    ensures AdjustTimes(DefaultSettings, "questionCount", -1, 6).questionCount == 5
  {
    DecreaseQuestionCount(DefaultSettings, 5);
    DecreaseQuestionCount(DefaultSettings, 6);
  }

  // ---------------------------------------------------------------------------
  // Answer buffer
  // ---------------------------------------------------------------------------

  /** The characters `String.prototype.trim` removes: white space and line terminators. */
  predicate IsWhitespace(c: char) {
    || '\U{9}' <= c <= '\U{D}' || c == '\U{20}' || c == '\U{A0}' || c == '\U{1680}'
    || '\U{2000}' <= c <= '\U{200A}' || c == '\U{2028}' || c == '\U{2029}' || c == '\U{202F}'
    || c == '\U{205F}' || c == '\U{3000}' || c == '\U{FEFF}'
  }

  /** Drops leading white space. */
  function TrimStart(s: string): (r: string)
    ensures |r| <= |s|
  {
    if s != [] && IsWhitespace(s[0]) then TrimStart(s[1..]) else s
  }

  /** Drops trailing white space. */
  function TrimEnd(s: string): (r: string)
    ensures |r| <= |s|
  {
    if s != [] && IsWhitespace(s[|s| - 1]) then TrimEnd(s[..|s| - 1]) else s
  }

  /** `String.prototype.trim`. */
  function Trim(s: string): string { TrimEnd(TrimStart(s)) }

  /** `TrimStart` keeps the longest suffix that does not start with white space. */
  lemma {:induction false} TrimStartSpec(s: string)
    ensures var r := TrimStart(s);
      && r == s[|s| - |r|..]
      && (forall i :: 0 <= i < |s| - |r| ==> IsWhitespace(s[i]))
      && (r != [] ==> !IsWhitespace(r[0]))
    decreases |s|
  {
    if s != [] && IsWhitespace(s[0]) {
      TrimStartSpec(s[1..]);
    }
  }

  /** `TrimEnd` keeps the longest prefix that does not end with white space. */
  lemma {:induction false} TrimEndSpec(s: string)
    ensures var r := TrimEnd(s);
      && r == s[..|r|]
      && (forall i :: |r| <= i < |s| ==> IsWhitespace(s[i]))
      && (r != [] ==> !IsWhitespace(r[|r| - 1]))
    decreases |s|
  {
    if s != [] && IsWhitespace(s[|s| - 1]) {
      TrimEndSpec(s[..|s| - 1]);
    }
  }

  /** Trimming yields the empty string exactly when the input is all white space. */
  lemma TrimEmptyIffBlank(s: string)
    ensures Trim(s) == "" <==> forall i :: 0 <= i < |s| ==> IsWhitespace(s[i])
  {
    var t := TrimStart(s);
    TrimStartSpec(s);
    TrimEndSpec(t);
    if Trim(s) == "" {
      assert t == [];
    }
  }

  /** What `handleSubmit` parses: the given answer, else the buffer, trimmed, sanitized and parsed. */
  function SubmittedAnswer(buffer: string, typed: Option<string>): ParseResult
  {
    ParseInput(SanitizeInput(Trim(typed.GetOr(buffer))))
  }

  /** A submitted answer is rejected, and then as empty, exactly when it is blank. */
  lemma SubmittedAnswerRejectedIffBlank(buffer: string, typed: Option<string>)
    ensures SubmittedAnswer(buffer, typed).Rejected? <==>
      forall i :: 0 <= i < |typed.GetOr(buffer)| ==> IsWhitespace(typed.GetOr(buffer)[i])
    ensures SubmittedAnswer(buffer, typed).Rejected? ==> SubmittedAnswer(buffer, typed).error == Empty
  {
    TrimEmptyIffBlank(typed.GetOr(buffer));
  }

  /** The message `handleSubmit` shows for a rejected answer. */
  function ErrorMessage(e: ParseError, useKeypad: bool): string
  {
    match e
    case Empty => if useKeypad then ErrorEmptyKeypad else ErrorEmpty
    case Incomplete => ErrorIncomplete
    case Invalid => ErrorInvalid
  }

  /** `prev.slice(0, -1)`. */
  function DropLast(prev: string): (r: string)
    ensures prev == "" ==> r == ""
    ensures prev != "" ==> |r| == |prev| - 1 && r + [prev[|prev| - 1]] == prev
  {
    if prev == "" then "" else prev[..|prev| - 1]
  }

  /** The "-" key's updater: removes a leading minus, or puts one in front. */
  function ToggleMinus(prev: string): (r: string)
    ensures prev != [] && prev[0] == '-' ==> ['-'] + r == prev
    ensures prev == [] || prev[0] != '-' ==> r == ['-'] + prev
  {
    if |prev| > 0 && prev[0] == '-' then prev[1..]
    else if |prev| == 0 then "-"
    else if prev == "0" then "-0"
    else "-" + prev
  }

  /** The updater for any other key: a key typed over a lone "0" replaces it, and over "-0" keeps only the sign. */
  function TypeKey(prev: string, key: string): string
  {
    if prev == "0" then key
    else if prev == "-0" then "-" + key
    else prev + key
  }

  /** The buffer after a keypad press, when presses are not ignored. */
  function PressKey(prev: string, key: string, allowNegative: bool): string
  {
    if key == "CLR" then ""
    else if key == "DEL" then DropLast(prev)
    else if key == "-" then (if allowNegative then ToggleMinus(prev) else prev)
    else TypeKey(prev, key)
  }

  /**
   * Keypad editing: "CLR" empties the buffer, "DEL" on an empty buffer keeps it
   * empty, "-" does nothing when negatives are not allowed and otherwise undoes
   * itself on a second press, and a digit replaces a lone "0". The keypad never
   * puts two minus signs in front, and only a buffer that starts with them (one
   * typed in through `handleAnswerChange`) is not restored by two presses.
   */
  lemma KeypadEditing(prev: string, allowNegative: bool, digit: char)
    requires '0' <= digit <= '9'
    ensures PressKey(prev, "CLR", allowNegative) == ""
    ensures PressKey("", "DEL", allowNegative) == ""
    ensures PressKey(prev, "-", false) == prev
    ensures !(|prev| >= 2 && prev[0] == '-' && prev[1] == '-') ==> PressKey(PressKey(prev, "-", true), "-", true) == prev
    ensures PressKey("0", [digit], allowNegative) == [digit]
    ensures PressKey("-0", [digit], allowNegative) == ['-', digit]
    ensures prev != "0" && prev != "-0" ==> PressKey(prev, [digit], allowNegative) == prev + [digit]
  {
    var once := ToggleMinus(prev);
    if prev != [] && prev[0] == '-' {
      if !(|prev| >= 2 && prev[1] == '-') {
        assert once == prev[1..];
        assert ToggleMinus(once) == ['-'] + once;
      }
    } else {
      assert once[1..] == prev;
    }
  }

  // ---------------------------------------------------------------------------
  // Question creation
  // ---------------------------------------------------------------------------

  /** The skill a mode drills: the provider's pick in mix mode, else the mode's own skill. */
  function SkillFor(mode: Mode, stats: Stats): SkillKey
  {
    match mode
    case Mix => PickSkill(stats)
    case Focus(k) => k
  }

  /**
   * The hook's `createQuestion` without its side effect: fails when the table
   * has no entry (hence no level) for the skill, else asks the provider.
   */
  function QuestionFor(mode: Mode, stats: Stats, settings: Settings): (r: Result<Question>)
    ensures r.Success? <==> SkillFor(mode, stats) in stats
    ensures r.Success? ==> r.value.skill == SkillFor(mode, stats) && r.value.level == 1 && r.value.answer in r.value.options
  {
    var skill := SkillFor(mode, stats);
    if skill !in stats then Failure(InvalidLevelMessage(skill))
    else Success(CreateQuestion(skill, stats[skill].level, settings, stats))
  }

  /** Mix mode always drills syllogism, and a fresh table never makes question creation fail. */
  lemma MixModeDrillsSyllogism(stats: Stats, settings: Settings, mode: Mode)
    ensures Syllogism in stats ==> QuestionFor(Mix, stats, settings) == Success(GenerateQuestion(Syllogism, stats[Syllogism].level))
    ensures QuestionFor(mode, CreateDefaultStats(), settings).Success?
  {
    var k := SkillFor(mode, CreateDefaultStats());
    assert k in AllSkills by {
      match k
      case Syllogism =>
      case Fallacy =>
      case Deduction =>
      case Induction =>
    }
  }

  // ---------------------------------------------------------------------------
  // The controller's state and its transitions
  // ---------------------------------------------------------------------------

  /** A snapshot of every field of a `TrainingSession`. */
  datatype State = State(
    screen: Screen,
    mode: Mode,
    settings: Settings,
    stats: Stats,
    question: Option<Question>,
    answer: string,
    feedback: Option<Feedback>,
    error: Option<string>,
    session: SessionCounts,
    questionIndex: int,
    timeLeft: int,
    answered: bool,
    startTime: int,
    loadedFromStorage: bool)

  /** The number of results recorded in the running session. */
  function Results(v: State): nat { v.session.correct + v.session.wrong }

  /** A question is on screen and still waits for its result. */
  predicate Pending(v: State) { v.question.Some? && !v.answered }

  /**
   * What every reachable state satisfies: settings within bounds, the index
   * within [1, 50], the countdown within [0, 120], an answered question has
   * feedback, and no more results than questions shown, the pending one aside.
   */
  predicate Invariant(v: State) {
    && WithinBounds(v.settings)
    && 1 <= v.questionIndex <= QuestionCountControl.max
    && 0 <= v.timeLeft <= TimeLimitControl.max
    && (v.answered ==> v.question.Some? && v.feedback.Some?)
    && Results(v) + (if Pending(v) then 1 else 0) <= v.questionIndex
  }

  /** The tallies after one result: exactly one of the two counters goes up by one. */
  function Tally(c: SessionCounts, correct: bool): (r: SessionCounts)
    ensures r.correct + r.wrong == c.correct + c.wrong + 1
    ensures correct <==> r.correct == c.correct + 1
    ensures !correct <==> r.wrong == c.wrong + 1
  {
    if correct then c.(correct := c.correct + 1) else c.(wrong := c.wrong + 1)
  }

  /** `beginQuestion`. */
  function AfterBegin(v: State, next: Question, now: int): State
  {
    v.(question := Some(next), answer := "", error := None, feedback := None, answered := false,
       startTime := now, timeLeft := v.settings.timeLimitSeconds)
  }

  /** `startSession`. */
  function AfterStart(v: State, mode: Mode, now: int): (r: State)
    ensures Invariant(v) ==> Invariant(r)
  {
    var reset := v.(mode := mode, session := SessionCounts(0, 0), questionIndex := 1, screen := Drill, error := None);
    match QuestionFor(mode, v.stats, v.settings)
    case Success(q) => AfterBegin(reset, q, now)
    case Failure(_) => reset.(error := Some(StartFailedMessage), screen := Menu)
  }

  /** `applyResult`. */
  function AfterApply(v: State, correct: bool, elapsed: int, timedOut: bool): (r: State)
    ensures Invariant(v) && !v.answered ==> Invariant(r)
  {
    match v.question
    case None => v
    case Some(q) =>
      v.(stats := ProviderUpdateStats(v.stats, q.skill, correct, elapsed),
         feedback := Some(Feedback(correct, FormatExpected(q), elapsed, q.skill, q.level, timedOut)),
         session := Tally(v.session, correct),
         error := None,
         answered := true)
  }

  /** `handleSubmit`. */
  function AfterSubmit(v: State, useKeypad: bool, typed: Option<string>, now: int): (r: State)
    ensures Invariant(v) ==> Invariant(r)
  {
    if !Pending(v) then v
    else
      match SubmittedAnswer(v.answer, typed)
      case Rejected(e) => v.(error := Some(ErrorMessage(e, useKeypad)))
      case Parsed(value) => AfterApply(v, IsCorrect(value, v.question.value), now - v.startTime, false)
  }

  /** `handleTimeout`. */
  function AfterTimeout(v: State, now: int): (r: State)
    ensures Invariant(v) ==> Invariant(r)
  {
    if !Pending(v) then v else AfterApply(v, false, now - v.startTime, true)
  }

  /** The countdown interval runs only on the drill screen while a question is pending. */
  predicate TimerRunning(v: State) { v.screen == Drill && Pending(v) }

  /** One firing of the one-second interval. */
  function AfterTick(v: State, now: int): (r: State)
    ensures Invariant(v) ==> Invariant(r)
  {
    if !TimerRunning(v) then v
    else if v.timeLeft <= 1 then AfterTimeout(v.(timeLeft := 0), now)
    else v.(timeLeft := v.timeLeft - 1)
  }

  /** `handleNext`: the new state and whether the completion callback was called. */
  function AfterNext(v: State, now: int): (r: (State, bool))
    ensures Invariant(v) ==> Invariant(r.0)
  {
    if !(v.question.Some? && v.answered) then (v, false)
    else if v.questionIndex + 1 > v.settings.questionCount then
      (v.(screen := Summary, question := None, answered := false), true)
    else (AfterAdvance(v, now), false)
  }

  /** The advancing branch of `handleNext`: the next index, then a new question or the load error. */
  function AfterAdvance(v: State, now: int): State
  {
    var advanced := v.(questionIndex := v.questionIndex + 1);
    match QuestionFor(v.mode, v.stats, v.settings)
    case Success(q) => AfterBegin(advanced, q, now)
    case Failure(_) => advanced.(error := Some(NextFailedMessage))
  }

  /** The feedback effect schedules the 700 ms auto-advance only for a correct or timed-out answer. */
  predicate AutoAdvanceScheduled(v: State) {
    v.feedback.Some? && (v.feedback.value.correct || v.feedback.value.timedOut)
  }

  /** The auto-advance timeout firing. */
  function AfterAutoAdvance(v: State, now: int): (r: (State, bool))
    ensures Invariant(v) ==> Invariant(r.0)
  {
    if AutoAdvanceScheduled(v) then AfterNext(v, now) else (v, false)
  }

  /** `allowNegativeAnswer`: only with a question and only if the provider has the hook. */
  function AllowNegative(v: State): bool {
    match AllowNegativeHook
    case None => false
    case Some(hook) =>
      match v.question
      case None => false
      case Some(q) => hook(q, v.settings)
  }

  /** `handleKeypadPress`. */
  function AfterKeypad(v: State, key: string): State
  {
    if v.answered then v else v.(error := None, answer := PressKey(v.answer, key, AllowNegative(v)))
  }

  /** The first-mount storage load: at most once; stored settings are merged over the defaults and normalized. */
  function AfterLoad(v: State, saved: Option<SavedSession>, savedSettings: Option<SavedSettings>): (r: State)
    ensures Invariant(v) ==> Invariant(r)
  {
    if v.loadedFromStorage then v
    else
      var marked := v.(loadedFromStorage := true);
      var withStats := if saved.Some? && saved.value.stats.Some? then marked.(stats := saved.value.stats.value) else marked;
      var withMode := if saved.Some? && saved.value.mode.Some? then withStats.(mode := saved.value.mode.value) else withStats;
      if savedSettings.None? then withMode
      else
        var n := NormalizeWith(MergeSettings(DefaultSettings, savedSettings.value), ProviderSlots);
        NormalizeWithinBoundsAndIdempotent(MergeSettings(DefaultSettings, savedSettings.value));
        withMode.(settings := n, timeLeft := n.timeLimitSeconds)
  }

  // ---------------------------------------------------------------------------
  // Properties of the transitions
  // ---------------------------------------------------------------------------

  /**
   * Starting a session resets the tallies and the index, and either shows a fresh
   * question on the drill screen with the full time limit, or falls back to the
   * menu with an error when no question can be made.
   */
  lemma StartSessionResets(v: State, mode: Mode, now: int)
    ensures AfterStart(v, mode, now).session == SessionCounts(0, 0)
    ensures AfterStart(v, mode, now).questionIndex == 1
    ensures AfterStart(v, mode, now).mode == mode
    ensures QuestionFor(mode, v.stats, v.settings).Success? ==>
      var r := AfterStart(v, mode, now);
      && r.screen == Drill && r.question.Some? && r.question.value.skill == SkillFor(mode, v.stats)
      && r.answer == "" && r.feedback == None && r.error == None && !r.answered
      && r.timeLeft == v.settings.timeLimitSeconds && r.startTime == now
    ensures QuestionFor(mode, v.stats, v.settings).Failure? ==>
      AfterStart(v, mode, now).screen == Menu && AfterStart(v, mode, now).error == Some(StartFailedMessage)
  {
  }

  /**
   * A pending question takes exactly one result: recording it adds one to exactly
   * one tally and marks the question answered, after which submitting, timing out
   * and ticking are all ignored.
   */
  lemma OneResultPerQuestion(v: State, correct: bool, elapsed: int, timedOut: bool,
                             useKeypad: bool, typed: Option<string>, now: int)
    requires Pending(v)
    ensures var r := AfterApply(v, correct, elapsed, timedOut);
      && Results(r) == Results(v) + 1 && r.answered
      && r.session == Tally(v.session, correct)
      && AfterSubmit(r, useKeypad, typed, now) == r
      && AfterTimeout(r, now) == r
      && AfterTick(r, now) == r
  {
  }

  /**
   * Without a pending question (none on screen, or already answered), submitting,
   * timing out and ticking change nothing.
   */
  lemma NothingPendingIgnoresResults(v: State, useKeypad: bool, typed: Option<string>, now: int)
    requires !Pending(v)
    ensures AfterSubmit(v, useKeypad, typed, now) == v
    ensures AfterTimeout(v, now) == v
    ensures AfterTick(v, now) == v
  {
  }

  /**
   * A keypad press is ignored once the question is answered; otherwise it clears
   * the error and edits the buffer. The logic provider never allows negatives, so
   * the "-" key leaves the buffer as it is.
   */
  lemma KeypadPressEffect(v: State, key: string)
    ensures !AllowNegative(v)
    ensures v.answered ==> AfterKeypad(v, key) == v
    ensures !v.answered ==> AfterKeypad(v, key) == v.(error := None, answer := PressKey(v.answer, key, false))
    ensures !v.answered && key == "-" ==> AfterKeypad(v, key).answer == v.answer
  {
  }

  /** A rejected answer only sets the error: statistics, tallies, the answered flag and feedback stay. */
  lemma RejectedSubmitOnlySetsError(v: State, useKeypad: bool, typed: Option<string>, now: int)
    requires Pending(v) && SubmittedAnswer(v.answer, typed).Rejected?
    ensures AfterSubmit(v, useKeypad, typed, now) == v.(error := Some(ErrorMessage(Empty, useKeypad)))
  {
    SubmittedAnswerRejectedIffBlank(v.answer, typed);
  }

  /**
   * A timeout is graded as a wrong answer through the same path: the wrong tally
   * goes up, the feedback says timed out, and auto-advance is scheduled.
   */
  lemma TimeoutIsWrongAnswer(v: State, now: int)
    requires Pending(v)
    ensures var r := AfterTimeout(v, now);
      && r == AfterApply(v, false, now - v.startTime, true)
      && r.session == SessionCounts(v.session.correct, v.session.wrong + 1)
      && r.feedback.Some? && r.feedback.value.timedOut && !r.feedback.value.correct
      && AutoAdvanceScheduled(r)
  {
  }

  /** After a graded submission, auto-advance is scheduled exactly when the answer was correct. */
  lemma SubmitSchedulesAdvanceIffCorrect(v: State, useKeypad: bool, typed: Option<string>, now: int)
    requires Pending(v) && SubmittedAnswer(v.answer, typed).Parsed?
    ensures AutoAdvanceScheduled(AfterSubmit(v, useKeypad, typed, now))
      <==> IsCorrect(SubmittedAnswer(v.answer, typed).value, v.question.value)
  {
  }

  /**
   * A submission that parses is graded by the provider and recorded: the tally
   * for its grade goes up (a wrong answer adds one to the wrong count and leaves
   * the correct count), the statistics take the attempt, the feedback carries the
   * grade, the expected answer and the elapsed time, and the question is answered.
   * The question, the buffer, the screen, the index and the settings stay.
   */
  lemma SubmitGradesAnswer(v: State, useKeypad: bool, typed: Option<string>, now: int)
    requires Pending(v) && SubmittedAnswer(v.answer, typed).Parsed?
    ensures var q := v.question.value;
      var ok := IsCorrect(SubmittedAnswer(v.answer, typed).value, q);
      var r := AfterSubmit(v, useKeypad, typed, now);
      && r.session == Tally(v.session, ok)
      && (!ok ==> r.session == SessionCounts(v.session.correct, v.session.wrong + 1))
      && (ok ==> r.session == SessionCounts(v.session.correct + 1, v.session.wrong))
      && r.stats == ProviderUpdateStats(v.stats, q.skill, ok, now - v.startTime)
      && r.feedback == Some(Feedback(ok, FormatExpected(q), now - v.startTime, q.skill, q.level, false))
      && r.answered && r.error == None
      && r.question == v.question && r.answer == v.answer && r.screen == v.screen
      && r.questionIndex == v.questionIndex && r.settings == v.settings && r.timeLeft == v.timeLeft
  {
  }

  /**
   * The 700 ms auto-advance runs `handleNext` only when it was scheduled, that is
   * after a correct or timed-out answer; otherwise firing changes nothing. So a
   * wrongly answered question that did not time out waits for `handleNext`.
   */
  lemma AutoAdvanceOnlyWhenScheduled(v: State, useKeypad: bool, typed: Option<string>, now: int)
    ensures !AutoAdvanceScheduled(v) ==> AfterAutoAdvance(v, now) == (v, false)
    ensures AutoAdvanceScheduled(v) ==> AfterAutoAdvance(v, now) == AfterNext(v, now)
    ensures (Pending(v) && SubmittedAnswer(v.answer, typed).Parsed?
             && !IsCorrect(SubmittedAnswer(v.answer, typed).value, v.question.value)) ==>
      var r := AfterSubmit(v, useKeypad, typed, now);
      AfterAutoAdvance(r, now) == (r, false)
  {
  }

  /**
   * The countdown runs only on the drill screen with a pending question: any
   * other state (the menu, the summary, no question, an answered one) ignores
   * the tick. While it runs, a tick lowers the countdown by one, and the tick
   * that finds it at 1 or below sets it to 0 and times the question out.
   */
  lemma TickOnlyWhileRunning(v: State, now: int)
    ensures !TimerRunning(v) ==> AfterTick(v, now) == v
    ensures v.screen != Drill ==> AfterTick(v, now) == v
    ensures TimerRunning(v) && v.timeLeft > 1 ==> AfterTick(v, now) == v.(timeLeft := v.timeLeft - 1)
    ensures TimerRunning(v) && v.timeLeft <= 1 ==> AfterTick(v, now) == AfterTimeout(v.(timeLeft := 0), now)
  {
  }

  /** `k` firings of the countdown interval. */
  function TickTimes(v: State, k: nat, now: int): State
  {
    if k == 0 then v else AfterTick(TickTimes(v, k - 1, now), now)
  }

  /**
   * The countdown goes down by one per tick while above 1; the tick that finds it
   * at 1 sets it to 0 and times the question out, and further ticks do nothing.
   */
  lemma {:induction false} CountdownTimesOut(v: State, k: nat, now: int)
    requires TimerRunning(v) && v.timeLeft >= 1
    ensures k < v.timeLeft ==> TickTimes(v, k, now) == v.(timeLeft := v.timeLeft - k)
    ensures k >= v.timeLeft ==> TickTimes(v, k, now) == AfterTimeout(v.(timeLeft := 0), now)
    decreases k
  {
    if k > 0 {
      CountdownTimesOut(v, k - 1, now);
    }
  }

  /**
   * `handleNext` does nothing until the question is answered. Past the last
   * question it shows the summary, clears the question and calls the completion
   * callback, which a second call does not call again; otherwise the index goes up
   * by exactly one and stays within the question count.
   */
  lemma NextAdvancesOrCompletes(v: State, now: int, later: int)
    ensures !(v.question.Some? && v.answered) ==> AfterNext(v, now) == (v, false)
    ensures AfterNext(v, now).1 <==>
      v.question.Some? && v.answered && v.questionIndex + 1 > v.settings.questionCount
    ensures AfterNext(v, now).1 ==>
      var r := AfterNext(v, now).0;
      && r.screen == Summary && r.question == None && !r.answered && r.session == v.session
      && AfterNext(r, later) == (r, false)
    ensures v.question.Some? && v.answered && v.questionIndex + 1 <= v.settings.questionCount ==>
      var r := AfterNext(v, now).0;
      && r.questionIndex == v.questionIndex + 1 && r.questionIndex <= v.settings.questionCount
      && r.session == v.session
    ensures v.question.Some? && v.answered && v.questionIndex + 1 <= v.settings.questionCount &&
            QuestionFor(v.mode, v.stats, v.settings).Success? ==>
      var r := AfterNext(v, now).0;
      && r.question.Some? && r.question.value.skill == SkillFor(v.mode, v.stats)
      && r.answer == "" && r.feedback == None && r.error == None && !r.answered
      && r.timeLeft == v.settings.timeLimitSeconds && r.startTime == now
    ensures v.question.Some? && v.answered && v.questionIndex + 1 <= v.settings.questionCount &&
            QuestionFor(v.mode, v.stats, v.settings).Failure? ==>
      var r := AfterNext(v, now).0;
      r.error == Some(NextFailedMessage) && r.question == v.question && r.answered && r.feedback == v.feedback
  {
  }

  /** One round of a perfect run: the expected answer is submitted, then `handleNext` is called. */
  function CorrectRoundStep(w: State, now: int): State
  {
    var typed := if w.question.Some? then w.question.value.answer else "";
    AfterNext(AfterSubmit(w, false, Some(typed), now), now).0
  }

  /** A whole session in which every question is answered with its expected answer. */
  function AnswerAll(v: State, k: nat, now: int): State
    decreases k
  {
    if k == 0 then v else AnswerAll(CorrectRoundStep(v, now), k - 1, now)
  }

  /** A question waits on the drill screen and its expected answer can be submitted as it is. */
  predicate Drilling(w: State) {
    w.screen == Drill && Pending(w) && Answerable(w.question.value)
  }

  /**
   * Where a perfect run stands after `k` rounds: nothing but the tallies, the index
   * and the question has moved; `k` correct results and no wrong one; still
   * drilling question `k + 1`, or on the summary once all are answered.
   */
  predicate PerfectRunAt(v: State, w: State, k: nat) {
    && Invariant(w)
    && w.stats == v.stats && w.settings == v.settings && w.mode == v.mode
    && w.session == SessionCounts(k, 0)
    && (k < v.settings.questionCount ==> Drilling(w) && w.questionIndex == k + 1)
    && (k == v.settings.questionCount ==> w.screen == Summary && w.question == None)
  }

  /** A string that neither starts nor ends with white space is its own trim. */
  lemma TrimKeepsTrimmed(s: string)
    requires s != [] && !IsWhitespace(s[0]) && !IsWhitespace(s[|s| - 1])
    ensures Trim(s) == s
  {
    assert TrimStart(s) == s;
    TrimEndSpec(s);
  }

  /** The expected answer, submitted as it is, is not empty and neither starts nor ends with white space. */
  predicate Answerable(q: Question) {
    q.answer != "" && !IsWhitespace(q.answer[0]) && !IsWhitespace(q.answer[|q.answer| - 1])
  }

  /** Every question of the bank is answerable. */
  lemma BankAnswersAreTrimmed(q: Question)
    requires q in QuestionBank
    ensures Answerable(q)
  {
    var a := q.answer;
    assert a == "Valid" || a == "False Dilemma" || a == "The ground is wet" || a == "The sun will rise tomorrow";
    assert a[0] == 'V' || a[0] == 'F' || a[0] == 'T';
    assert a[|a| - 1] == 'd' || a[|a| - 1] == 'a' || a[|a| - 1] == 't' || a[|a| - 1] == 'w';
  }

  /** Every question the controller can create is answerable. */
  lemma QuestionForAnswerable(mode: Mode, stats: Stats, settings: Settings)
    ensures QuestionFor(mode, stats, settings).Success? ==> Answerable(QuestionFor(mode, stats, settings).value)
  {
    var skill := SkillFor(mode, stats);
    if skill in stats {
      GeneratedQuestionInBank(skill, stats[skill].level);
      BankAnswersAreTrimmed(GenerateQuestion(skill, stats[skill].level));
    }
  }

  /** The expected answer of an answerable question parses to itself. */
  lemma ExpectedAnswerParses(w: State)
    requires Pending(w) && Answerable(w.question.value)
    ensures SubmittedAnswer(w.answer, Some(w.question.value.answer)) == Parsed(w.question.value.answer)
  {
    TrimKeepsTrimmed(w.question.value.answer);
  }

  /** Submitting an expected answer that parses records a correct result. */
  lemma ExpectedAnswerGraded(w: State, now: int)
    requires Pending(w)
    requires SubmittedAnswer(w.answer, Some(w.question.value.answer)) == Parsed(w.question.value.answer)
    ensures AfterSubmit(w, false, Some(w.question.value.answer), now) == AfterApply(w, true, now - w.startTime, false)
  {
    IsCorrectCaseInsensitive(w.question.value.answer, w.question.value);
  }

  /** A correct result followed by `handleNext`. */
  lemma CorrectResultThenNext(w: State, now: int)
    requires Invariant(w) && w.screen == Drill && Pending(w)
    requires SkillFor(w.mode, w.stats) in w.stats
    ensures var n := AfterNext(AfterApply(w, true, now - w.startTime, false), now).0;
      && n.stats == w.stats && n.settings == w.settings && n.mode == w.mode
      && n.session == SessionCounts(w.session.correct + 1, w.session.wrong)
      && (w.questionIndex + 1 <= w.settings.questionCount ==>
            n.screen == Drill && Pending(n) && n.questionIndex == w.questionIndex + 1 && Answerable(n.question.value))
      && (w.questionIndex + 1 > w.settings.questionCount ==> n.screen == Summary && n.question == None)
  {
    QuestionForAnswerable(w.mode, w.stats, w.settings);
  }

  /** One round of a perfect run moves it from `k - 1` to `k` correct results. */
  lemma CorrectRound(v: State, w: State, k: nat, now: int)
    requires 0 < k <= v.settings.questionCount
    requires PerfectRunAt(v, w, k - 1)
    requires SkillFor(v.mode, v.stats) in v.stats
    ensures PerfectRunAt(v, CorrectRoundStep(w, now), k)
  {
    ExpectedAnswerParses(w);
    ExpectedAnswerGraded(w, now);
    CorrectResultThenNext(w, now);
  }

  /** The first of `k` perfect rounds. */
  lemma AnswerAllFirstRound(w: State, k: nat, now: int)
    requires k > 0
    ensures AnswerAll(w, k, now) == AnswerAll(CorrectRoundStep(w, now), k - 1, now)
  {
  }

  /**
   * In a started session whose skill has statistics, answering every question
   * correctly keeps drilling, each round adding one correct result, until the
   * last answer leads to the summary with all of them correct and none wrong.
   */
  lemma AllCorrectRun(v: State, now: int)
    requires Invariant(v) && Drilling(v)
    requires v.session == SessionCounts(0, 0) && v.questionIndex == 1
    requires SkillFor(v.mode, v.stats) in v.stats
    ensures var w := AnswerAll(v, v.settings.questionCount, now);
      && w.screen == Summary && w.question == None
      && w.session == SessionCounts(v.settings.questionCount, 0)
      && w.stats == v.stats && w.settings == v.settings && w.mode == v.mode
  {
    var n := v.settings.questionCount;
    var w, i, rest := v, 0, n;
    while i < n
      invariant 0 <= i <= n && rest == n - i
      invariant PerfectRunAt(v, w, i)
      invariant AnswerAll(w, rest, now) == AnswerAll(v, n, now)
    {
      CorrectRound(v, w, i + 1, now);
      AnswerAllFirstRound(w, rest, now);
      w, i, rest := CorrectRoundStep(w, now), i + 1, rest - 1;
    }
  }

  /**
   * `startSession` followed by one correct answer and `handleNext` per question
   * ends on the summary screen with every answer counted correct and none wrong.
   */
  lemma StartedPerfectSession(v: State, mode: Mode, now: int)
    requires Invariant(v)
    requires SkillFor(mode, v.stats) in v.stats
    ensures var w := AnswerAll(AfterStart(v, mode, now), v.settings.questionCount, now);
      && w.screen == Summary && w.question == None
      && w.session == SessionCounts(v.settings.questionCount, 0)
      && w.stats == v.stats && w.settings == v.settings && w.mode == mode
  {
    QuestionForAnswerable(mode, v.stats, v.settings);
    AllCorrectRun(AfterStart(v, mode, now), now);
  }

  // ---------------------------------------------------------------------------
  // The hook
  // ---------------------------------------------------------------------------

  /** The state of one mounted `useTrainingSession` hook bound to the logic provider. */
  class TrainingSession {
    var screen: Screen
    var mode: Mode
    var settings: Settings
    /** `stats`, and `statsRef`, which every update keeps equal to it. */
    var stats: Stats
    var question: Option<Question>
    var answer: string
    var feedback: Option<Feedback>
    var error: Option<string>
    var session: SessionCounts
    var questionIndex: int
    var timeLeft: int
    var answered: bool
    /** `startTimeRef`: the clock reading when the current question began. */
    var startTime: int
    /** `didLoadFromStorage`. */
    var loadedFromStorage: bool

    /** The snapshot of all fields. */
    function View(): State
      reads this
    {
      State(screen, mode, settings, stats, question, answer, feedback, error, session,
            questionIndex, timeLeft, answered, startTime, loadedFromStorage)
    }

    ghost predicate Valid()
      reads this
    {
      Invariant(View())
    }

    /** The initial state: default statistics, mix mode, normalized default settings, the menu. */
    constructor ()
      ensures Valid()
      ensures View() == State(Menu, Mix, DefaultSettings, CreateDefaultStats(), None, "", None, None,
                              SessionCounts(0, 0), 1, DefaultSettings.timeLimitSeconds, false, 0, false)
    {
      var normalized := NormalizeSettings(Some(DefaultSettings), Some(ProviderSlots));
      NormalizeProviderSettings(DefaultSettings);
      stats := CreateDefaultStats();
      mode := Mix;
      screen := Menu;
      settings := normalized.value;
      question := None;
      answer := "";
      feedback := None;
      error := None;
      session := SessionCounts(0, 0);
      questionIndex := 1;
      timeLeft := normalized.value.timeLimitSeconds;
      answered := false;
      startTime := 0;
      loadedFromStorage := false;
    }

    // The setters `useState` hands out: each replaces one field and nothing else.

    method SetStats(next: Stats)
      modifies this`stats
      ensures View() == old(View()).(stats := next)
    {
      stats := next;
    }

    method SetMode(next: Mode)
      modifies this`mode
      ensures View() == old(View()).(mode := next)
    {
      mode := next;
    }

    /** `setScreen`, which the hook also returns to its callers. */
    method SetScreen(next: Screen)
      modifies this`screen
      ensures View() == old(View()).(screen := next)
      ensures old(Valid()) ==> Valid()
    {
      screen := next;
    }

    method SetSettings(next: Settings)
      modifies this`settings
      ensures View() == old(View()).(settings := next)
    {
      settings := next;
    }

    method SetQuestion(next: Option<Question>)
      modifies this`question
      ensures View() == old(View()).(question := next)
    {
      question := next;
    }

    method SetAnswer(next: string)
      modifies this`answer
      ensures View() == old(View()).(answer := next)
    {
      answer := next;
    }

    method SetFeedback(next: Option<Feedback>)
      modifies this`feedback
      ensures View() == old(View()).(feedback := next)
    {
      feedback := next;
    }

    method SetError(next: Option<string>)
      modifies this`error
      ensures View() == old(View()).(error := next)
    {
      error := next;
    }

    method SetSession(next: SessionCounts)
      modifies this`session
      ensures View() == old(View()).(session := next)
    {
      session := next;
    }

    method SetQuestionIndex(next: int)
      modifies this`questionIndex
      ensures View() == old(View()).(questionIndex := next)
    {
      questionIndex := next;
    }

    method SetTimeLeft(next: int)
      modifies this`timeLeft
      ensures View() == old(View()).(timeLeft := next)
    {
      timeLeft := next;
    }

    method SetAnswered(next: bool)
      modifies this`answered
      ensures View() == old(View()).(answered := next)
    {
      answered := next;
    }

    /** The first-mount effect that reads the stored session and settings. */
    method LoadFromStorage(saved: Option<SavedSession>, savedSettings: Option<SavedSettings>)
      requires Valid()
      modifies this
      ensures Valid()
      ensures View() == AfterLoad(old(View()), saved, savedSettings)
    {
      if loadedFromStorage {
        return;
      }
      loadedFromStorage := true;
      if saved.Some? && saved.value.stats.Some? {
        SetStats(saved.value.stats.value);
      }
      if saved.Some? && saved.value.mode.Some? {
        SetMode(saved.value.mode.value);
      }
      if savedSettings.Some? {
        var merged := MergeSettings(DefaultSettings, savedSettings.value);
        var normalized := NormalizeSettings(Some(merged), Some(ProviderSlots));
        NormalizeWithinBoundsAndIdempotent(merged);
        if normalized.Success? {
          SetSettings(normalized.value);
          SetTimeLeft(normalized.value.timeLimitSeconds);
        }
      }
    }

    /** `beginQuestion`. */
    method BeginQuestion(next: Question, now: int)
      modifies this
      ensures View() == AfterBegin(old(View()), next, now)
    {
      SetQuestion(Some(next));
      SetAnswer("");
      SetError(None);
      SetFeedback(None);
      SetAnswered(false);
      startTime := now;
      SetTimeLeft(settings.timeLimitSeconds);
    }

    /** The hook's `createQuestion`: on failure it also sets the error message. */
    method CreateQuestion(selectedMode: Mode) returns (r: Result<Question>)
      modifies this`error
      ensures r == QuestionFor(selectedMode, stats, settings)
      ensures View() == if r.Failure? then old(View()).(error := Some(GenerateFailedMessage)) else old(View())
    {
      var skill := SkillFor(selectedMode, stats);
      if skill !in stats {
        SetError(Some(GenerateFailedMessage));
        return Failure(InvalidLevelMessage(skill));
      }
      var level := stats[skill].level;
      return Success(Provider.CreateQuestion(skill, level, settings, stats));
    }

    /** `startSession`. */
    method StartSession(nextMode: Mode, now: int)
      requires Valid()
      modifies this
      ensures Valid()
      ensures View() == AfterStart(old(View()), nextMode, now)
    {
      SetMode(nextMode);
      SetSession(SessionCounts(0, 0));
      SetQuestionIndex(1);
      SetScreen(Drill);
      SetError(None);
      var next := CreateQuestion(nextMode);
      match next
      case Success(q) =>
        BeginQuestion(q, now);
      case Failure(_) =>
        SetError(Some(StartFailedMessage));
        SetScreen(Menu);
    }

    /** `goToMenu`. */
    method GoToMenu()
      requires Valid()
      modifies this
      ensures Valid()
      ensures View() == old(View()).(screen := Menu, question := None, feedback := None, error := None,
                                     answer := "", answered := false)
    {
      SetScreen(Menu);
      SetQuestion(None);
      SetFeedback(None);
      SetError(None);
      SetAnswer("");
      SetAnswered(false);
    }

    /** `applyResult`. */
    method ApplyResult(correct: bool, elapsed: int, timedOut: bool)
      modifies this
      ensures View() == AfterApply(old(View()), correct, elapsed, timedOut)
    {
      if question.None? {
        return;
      }
      var q := question.value;
      var nextStats := ProviderUpdateStats(stats, q.skill, correct, elapsed);
      SetStats(nextStats);
      SetFeedback(Some(Feedback(correct, FormatExpected(q), elapsed, q.skill, q.level, timedOut)));
      SetSession(SessionCounts(session.correct + (if correct then 1 else 0), session.wrong + (if correct then 0 else 1)));
      SetError(None);
      SetAnswered(true);
    }

    /** `handleSubmit`; `typed` is the optional `answer` option, `useKeypad` the `useKeypad` option. */
    method HandleSubmit(useKeypad: bool, typed: Option<string>, now: int)
      requires Valid()
      modifies this
      ensures Valid()
      ensures View() == AfterSubmit(old(View()), useKeypad, typed, now)
    {
      if question.None? || answered {
        return;
      }
      var finalAnswer := typed.GetOr(answer);
      var cleaned := SanitizeInput(Trim(finalAnswer));
      var parsed := ParseInput(cleaned);
      if parsed.Rejected? {
        SetError(Some(ErrorMessage(parsed.error, useKeypad)));
        return;
      }
      var elapsed := now - startTime;
      var correct := IsCorrect(parsed.value, question.value);
      ApplyResult(correct, elapsed, false);
    }

    /** `handleAnswerChange`. */
    method HandleAnswerChange(raw: string)
      requires Valid()
      modifies this
      ensures Valid()
      ensures View() == old(View()).(answer := SanitizeInput(raw), error := None)
    {
      SetAnswer(SanitizeInput(raw));
      SetError(None);
    }

    /** `handleKeypadPress`. */
    method HandleKeypadPress(key: string)
      requires Valid()
      modifies this
      ensures Valid()
      ensures View() == AfterKeypad(old(View()), key)
    {
      if answered {
        return;
      }
      SetError(None);
      var allowNegative := AllowNegative(View());
      if key == "CLR" {
        SetAnswer("");
      } else if key == "DEL" {
        SetAnswer(DropLast(answer));
      } else if key == "-" {
        SetAnswer(if allowNegative then ToggleMinus(answer) else answer);
      } else {
        SetAnswer(TypeKey(answer, key));
      }
    }

    /** `handleNext`; `completed` tells whether `onSessionComplete` was called. */
    method HandleNext(now: int) returns (completed: bool)
      requires Valid()
      modifies this
      ensures Valid()
      ensures (View(), completed) == AfterNext(old(View()), now)
    {
      completed := false;
      if question.None? || !answered {
        return;
      }
      if questionIndex + 1 > settings.questionCount {
        SetScreen(Summary);
        SetQuestion(None);
        SetAnswered(false);
        completed := true;
        return;
      }
      Advance(now);
    }

    /** The advancing branch of `handleNext`'s `try` block. */
    method Advance(now: int)
      modifies this
      ensures View() == AfterAdvance(old(View()), now)
    {
      SetQuestionIndex(questionIndex + 1);
      var next := CreateQuestion(mode);
      match next
      case Success(q) =>
        BeginQuestion(q, now);
      case Failure(_) =>
        SetError(Some(NextFailedMessage));
    }

    /** `handleTimeout`. */
    method HandleTimeout(now: int)
      requires Valid()
      modifies this
      ensures Valid()
      ensures View() == AfterTimeout(old(View()), now)
    {
      if question.None? || answered {
        return;
      }
      var elapsed := now - startTime;
      ApplyResult(false, elapsed, true);
    }

    /** `resetStats`. */
    method ResetStats()
      requires Valid()
      modifies this
      ensures Valid()
      ensures View() == old(View()).(stats := CreateDefaultStats())
    {
      SetStats(CreateDefaultStats());
    }

    /** `adjustSetting`. */
    method AdjustSetting(controlId: string, delta: int)
      requires Valid()
      modifies this
      ensures Valid()
      ensures View() == old(View()).(settings := Adjust(old(settings), controlId, delta))
    {
      var control := FindControl(SettingControls, controlId);
      if control.None? {
        return;
      }
      var c := control.value;
      var current := GetValue(c.id, settings);
      var nextValue := Clamp(current + c.step * delta, c.min, c.max);
      SetSettings(SetValue(c.id, settings, nextValue));
    }

    /** The body of the one-second interval, which runs only while `TimerRunning`. */
    method Tick(now: int)
      requires Valid()
      modifies this
      ensures Valid()
      ensures View() == AfterTick(old(View()), now)
    {
      if !(screen == Drill && question.Some? && !answered) {
        return;
      }
      if timeLeft <= 1 {
        SetTimeLeft(0);
        HandleTimeout(now);
      } else {
        SetTimeLeft(timeLeft - 1);
      }
    }

    /** The 700 ms auto-advance timeout firing; `completed` as for `HandleNext`. */
    method FireAutoAdvance(now: int) returns (completed: bool)
      requires Valid()
      modifies this
      ensures Valid()
      ensures (View(), completed) == AfterAutoAdvance(old(View()), now)
    {
      completed := false;
      if feedback.Some? && (feedback.value.correct || feedback.value.timedOut) {
        completed := HandleNext(now);
      }
    }
  }
}

=== FILE: wrappers.dfy ===
/** Option and Result values shared by the three modules of the model. */
module Wrappers {

  /** A value that may be missing (the source's `null`, `undefined` or an absent key). */
  datatype Option<+T> = None | Some(value: T) {

    /** The value, or `default` when there is none (the source's `??`). */
    function GetOr(default: T): T {
      match this
      case Some(v) => v
      case None => default
    }
  }

  /** The outcome of an operation that the source lets throw: `Failure` carries the error message. */
  datatype Result<+T> = Success(value: T) | Failure(error: string)
}
